=== FILE: README.md ===
# follow / echod — a Dafny model

`follow` merges newly appended bytes from several growing files onto standard
output, like `tail -f` on many files at once. Each block is preceded by a
banner naming its file whenever the source changes. It runs on one FreeBSD
kqueue that carries two kinds of event:
- vnode "file was written" notifications;
- completions of POSIX asynchronous reads (`aio_read`).

For each source, `follow` keeps at most one asynchronous read outstanding. When
the kernel refuses a request, it falls back to a synchronous `read`.

`echod` is a small libev echo server. Its per-connection handler queues received
bytes as buffers and writes them back to the client, possibly over several
partial writes.

The model is purely functional. Every system call (`open`, `lseek`, `aio_read`,
`aio_cancel`, `aio_return`, `read`, `write`, `recv`) becomes an input that
describes its outcome:
- `Io.ReadResult`, `Io.WriteResult` and `Io.Sink`;
- `Scheduler.Env` and `Scheduler.CancelResult`;
- `FileInfo.Opening`;
- `Echo.Wake`.

Process exits become results:
- a failed `open` at startup (`err`) is `FileInfo.OpenFailed`, carrying the path
  that could not be opened; nothing has been output then;
- an exit while dispatching is `Scheduler.Fatal(reason, out)`, where `out` is
  what standard output holds at that point. The reason is `OffsetMismatch` for
  the debug build's `assert` (an abort) and one of `EventError`,
  `UnknownSource`, `ReadFailed` or `SinkWriteFailed` for an `err`.

Modules:
- `Io` — bytes, and the results of read-like and write-like calls. An exhausted
  write `Sink` accepts every request whole.
- `KFlags` — `flags_str` and `fflags_str`, with the FreeBSD values of the
  `EV_*` and `NOTE_*` constants written as bit positions.
- `FileInfo` — `finfo_t`:
  - the banner, `fill_cb` and `make_fileinfo`;
  - `make_events`;
  - the registry, a `std::map` modelled as a map plus its ascending key order.
- `Output` — `write(fd, file, buf, nbytes)`: banner on a source switch, the
  short-write loop (as written and corrected, see Findings; `Write` uses the
  corrected one), offset advance, `lastfd`.
- `Scheduler` — `decode_events` as `Dispatch(state, event, env)`, returning
  `Fatal(reason, out)` or `Ok(next, submitted)`. `submitted` is the
  asynchronous request left with the kernel. The model is the debug build,
  which keeps `pending` and the `assert` before the synchronous read. Each
  source also carries its descriptor's file position, which that `assert`
  compares with the offset.
- `FollowRun` — `Dispatch` folded over a sequence of events, and the kernel's
  count of outstanding reads. Also relates the fallback path to the
  asynchronous path.
- `Echo` — `Buffer`, and `EchoInstance::callback`, `read_cb` and `write_cb` as a
  state machine over a queue of buffers.

The model follows the code, with one departure: the short-write loop is
corrected (see Findings). Behaviours of the code worth knowing:
- The first block ever written carries no banner, because `lastfd` starts at
  -1 (follow/follow.cc:179-183). An A, B, A sequence therefore prints `a1`,
  banner(B), `b1`, banner(A), `a2` (`FollowRun.SwitchingSources`).
- Only `AIO_CANCELED` ends a refused request without reading. Every other
  `aio_cancel` answer falls through to the synchronous read, `AIO_ALLDONE`
  included (follow/follow.cc:346-357).
- The fallback path and the asynchronous path are not interchangeable.
  - From a source whose descriptor stands at its offset, both paths give the
    same output, offsets and `lastfd` for a non-empty read
    (`FollowRun.FallbackMatchesAsync`). They differ in the descriptor
    position: `read` moves it, `aio_read` does not.
  - So once a completion has delivered bytes, the descriptor lags behind the
    offset. The next refused request for that source whose `aio_cancel` does
    not answer `AIO_CANCELED` trips the `assert` at follow/follow.cc:356 and
    the program aborts
    (`FollowRun.FallbackAfterCompletionAborts`). The `lseek` that would
    realign it (line 355) is commented out.
  - On an empty read they diverge as well: a completion of 0 bytes still
    records its source in `lastfd`, but a fallback read of 0 bytes does not.
    With several sources, this changes which banners appear later
    (`FollowRun.EmptyReadsChangeBanners`).

## Model

| member | source | states |
|---|---|---|
| KFlags.DescribeNamesSetBits | follow/follow.cc:226-264 | `flags_str` and `fflags_str` print the names of exactly the set bits that have a table entry, in ascending bit order, joined by " \| " |
| KFlags.DescribeEmptyIff | follow/follow.cc:242 | the description is empty exactly when no tabled bit is set |
| KFlags.DescribeIgnoresUntabled | follow/follow.cc:230-240 | two words that agree on every tabled bit print the same, so untabled bits such as EV_ERROR contribute nothing |
| KFlags.TablesWellFormed | follow/follow.cc:231-260 | both tables name distinct bits within the word width with non-empty names, and EV_ERROR is not in the `flags_str` table |
| KFlags.ScanLists | follow/follow.cc:230-240 | the bit loop visits exactly the tabled set bits, in ascending order |
| KFlags.ListingUnique | follow/follow.cc:230-240 | the ascending listing of a word's set tabled bits is unique |
| KFlags.PipedJoin | follow/follow.cc:231-242 | appending " \| NAME" per hit and dropping the first three characters is joining the names with " \| " |
| KFlags.InterestFlagsPrinted | follow/follow.cc:171 | EV_ADD \| EV_CLEAR prints as "EV_ADD \| EV_CLEAR" |
| FileInfo.Banner | follow/follow.cc:87 | the banner is "\n==== ", the name, " ====\n\n", so its length is the name's plus 13 |
| FileInfo.NewSource | follow/follow.cc:73-93 | a new record has the descriptor, the name, the end-of-file offset and its banner, and nothing outstanding; the descriptor stands at that offset, where the `lseek` left it |
| FileInfo.FillCb | follow/follow.cc:128-143 | the control record reads a full buffer from the source's descriptor at its offset, and posts the completion to the kqueue carrying the descriptor |
| FileInfo.Emplace | follow/follow.cc:156 | inserting a descriptor already present keeps the first record; otherwise the new record is added and the key order stays ascending |
| FileInfo.MakeFileinfo | follow/follow.cc:148-160 | startup fails iff some path cannot be opened; otherwise the registry holds one record per distinct descriptor, in ascending order, none pending, each built from the first path that opened as that descriptor |
| FileInfo.FirstFailureReported | follow/follow.cc:151-154 | the failure reported is the first path that cannot be opened |
| FileInfo.MakeEvents | follow/follow.cc:162-175 | one EVFILT_VNODE, EV_ADD \| EV_CLEAR, NOTE_WRITE entry per registered descriptor, covering all of them, in ascending descriptor order |
| FileInfo.WatchWritesPrinted | follow/follow.cc:171 | the registered interest flags print as "EV_ADD \| EV_CLEAR" |
| Output.Write | follow/follow.cc:177-198 | `lastfd` becomes the source even for an empty block; the offset grows by exactly the block length; the output gains what the sink took of the banner iff the banner is due, then exactly the block; a -1 from the banner's write is ignored, and the process ends only if one of the block's writes returns -1, leaving a prefix of that output, and does end with just the banner part when the block's first write returns -1; while the block's writes succeed the whole block goes out; on a sink that takes every request whole, the whole banner iff due, then the block (with the corrected loop, see Left out) |
| Output.WriteAgreesAsWritten | follow/follow.cc:181-192 | when the block's first write takes all of it, what `Write` appends is the banner part followed by what the loop as written sends |
| Output.BannerWritten | follow/follow.cc:182 | the banner write's result is ignored: a -1 outputs nothing of the banner, otherwise exactly as much of it as that call accepts, and all of it on a sink that takes every request whole |
| Output.BannerFailureIgnored | follow/follow.cc:181-192 | a banner write returning -1 does not end the process: the block follows without the banner |
| Output.WritePreserves | follow/follow.cc:194-197 | writing keeps the registry's sources and well-formedness, and offsets only grow |
| Output.FirstBlockHasNoBanner | follow/follow.cc:179-183 | the first block ever written goes out without a banner |
| Output.NoBannerWithinOneSource | follow/follow.cc:181-183 | two consecutive blocks from one source have no banner between them |
| Output.SendAsWritten | follow/follow.cc:185-192 | the loop as written: with a sink that takes everything, the whole block goes out once; when it completes it has sent as many bytes as the block holds, though not necessarily the block's bytes; the output is bounded by the number of calls |
| Output.SendCorrected | follow/follow.cc:185-192 | the corrected loop outputs exactly the unsent part of the block when it completes, and a prefix of it otherwise; a call returning -1 ends it at once with nothing more sent, and a sink none of whose calls returns -1 lets it complete |
| Output.ShortWriteRepeats | follow/follow.cc:187 | a short first write makes the loop as written repeat the head of the block instead of sending its tail |
| Output.NoShortWriteNoDifference | follow/follow.cc:185-192 | when the first call takes the whole block, both loops send it exactly once |
| Scheduler.Classify | follow/follow.cc:291-292 | an event is a completion iff its `udata` is non-null, and the completion's descriptor is the `udata` |
| Scheduler.CompletionRecognisedIffNonzero | follow/follow.cc:140 | a completion for descriptor 0 would be taken for a readiness notification, so completions are recognised only for descriptors above 0 |
| Scheduler.Complete | follow/follow.cc:291-311 | a completion clears `pending` and leaves the descriptor position alone; a failed read is discarded with output, offset and `lastfd` unchanged; otherwise the bytes `aio_return` reports are output after the banner when due, the offset grows by their count and `lastfd` becomes the source; the process ends only if one of the block's writes returns -1, having output a prefix of that, and ends with just the banner part when the block's first write does (with the corrected loop, see Left out) |
| Scheduler.Initiate | follow/follow.cc:328-363 | an accepted `aio_read` leaves the source pending with the filled request and nothing written; a refused one leaves it not pending; `AIO_CANCELED` reads nothing; any other answer aborts unless the descriptor stands at the offset, then reads synchronously, where -1 is fatal, 0 writes nothing and keeps `lastfd`, and a non-empty block is output after the banner when due, moving both offset and descriptor by its length and making the source `lastfd`, unless one of the block's writes returns -1, which ends the process, at once with just the banner part on the first write (with the corrected loop, see Left out) |
| Scheduler.Dispatch | follow/follow.cc:278-364 | EV_ERROR and an unknown readiness descriptor are fatal with nothing more output; a readiness for a pending source changes nothing; a failed completion only clears `pending`; the bytes of a successful completion, and of a non-empty fallback read, are output after the banner when due, advance the offset by their count and make the source `lastfd`, and the process ends there only if one of the block's writes returns -1, at once with just the banner part on its first write; a fallback for a source whose descriptor has left its offset aborts; the descriptor moves only by a fallback read; the registry is fixed, offsets and output only grow, only the event's source changes; a request is submitted only for a source with none outstanding |
| FollowRun.StartTracked | follow/follow.cc:73-80 | at startup no source has a read outstanding, so `pending` matches a kernel holding no requests |
| FollowRun.RunEvents | follow/follow.cc:395-397 | over any sequence of events the registry stays fixed, offsets never decrease and output only grows, also up to a fatal exit |
| FollowRun.DispatchTracked | follow/follow.cc:296-345 | if `pending` matches the kernel's outstanding reads before a dispatch, it does so after; no request is submitted for a descriptor with one outstanding; a completion always finds its source pending |
| FollowRun.AtMostOneOutstanding | follow/follow.cc:323-345 | over any run where the kernel completes only requests it holds, no descriptor ever has two reads outstanding |
| FollowRun.FallbackMatchesAsync | follow/follow.cc:302-363 | from a source whose descriptor stands at its offset, a refused request whose synchronous read returns a non-empty block ends in the same state as an accepted request completing with that block, except that the descriptor has moved by the block |
| FollowRun.FallbackAfterCompletionAborts | follow/follow.cc:304-356 | after a completion that delivered bytes, the descriptor lags the offset by their count, and the next refused request for that source whose `aio_cancel` does not answer `AIO_CANCELED` aborts at the `assert` |
| FollowRun.EmitIgnoresPosition | follow/follow.cc:177-198 | writing a block neither reads nor moves the descriptor position |
| FollowRun.WriteIgnoresPosition | follow/follow.cc:177-198 | where the descriptor stands changes nothing in `write`: a failure is the same failure, a success the same state with the descriptor left where it was |
| FollowRun.EmptyReadsDiffer | follow/follow.cc:357-361 | an empty fallback read leaves `lastfd` alone, while an empty completion sets it to the source |
| FollowRun.EmptyReadsChangeBanners | follow/follow.cc:196 | after an empty read, the next block from the previous source is bannered on the asynchronous path only |
| FollowRun.SwitchAnnounced | follow/follow.cc:181-183 | a non-empty block from a source other than the last one is preceded by its banner |
| FollowRun.SwitchingSources | follow/follow.cc:179-197 | blocks from A, B, A print a1, banner(B), b1, banner(A), a2 |
| Echo.NewBuffer | echod/echod.cc:28-31 | a new buffer holds exactly the bytes given, at position 0, with all of them left to write |
| Echo.DPos | echod/echod.cc:43-45 | `dpos()` is the part of the data after the position, of length `nbytes()` |
| Echo.Bump | echod/echod.cc:47-53 | `bump(n)` advances the position by exactly `n`, so `nbytes()` drops by `n`; it stays in range when `n` is at most `nbytes()` |
| Echo.BumpConsumes | echod/echod.cc:43-53 | bumping by `n` removes exactly the first `n` of the remaining bytes |
| Echo.PendingAppend | echod/echod.cc:126 | appending a buffer appends its bytes to what the queue still owes |
| Echo.Advance | echod/echod.cc:104-106 | after `n` bytes of the front buffer are written, the front is bumped by `n` and popped iff nothing of it is left; the written bytes followed by what the queue still owes are what it owed before |
| Echo.WriteCb | echod/echod.cc:90-107 | an empty queue writes nothing and re-arms for reads; -1 changes nothing; otherwise only the front buffer's remaining bytes are written, and it is advanced and dropped iff it is finished; the bytes owed are conserved |
| Echo.ReadCb | echod/echod.cc:110-127 | -1 changes nothing, 0 ends the instance, otherwise exactly the bytes received are queued as one buffer at the back |
| Echo.Callback | echod/echod.cc:70-87 | an error does nothing; otherwise the read runs before the write, so bytes received on an empty queue are written back in the same call, and the interest is READ iff the queue is empty; the bytes owed grow by exactly what arrived |
| Echo.Conservation | echod/echod.cc:90-127 | over any run, the bytes sent followed by the bytes still queued equal the bytes owed at the start followed by every byte received |
| Echo.EchoesInOrder | echod/echod.cc:90-127 | from a fresh connection, what has been sent is always a prefix of what has been received |
| Echo.NothingFromNothing | echod/echod.cc:70-107 | with no reads, an empty connection sends nothing and stays empty |

## Left out

- Tracing: `trace`, the `NOTRACE` check and stderr formatting (follow/follow.cc:202-224) only produce diagnostics.
- `main` (follow/follow.cc:366-398) is left out: the signal handler, `s_stop`, kqueue creation, the `kevent` wait and the exit when there are no files. `FollowRun.RunEvents` folds `Dispatch` over the events the wait returns.
- Lifetimes are left out: the move constructor, `unique_ptr`/`malloc` failures, the stability of the `cb` address, and the `invariant()` asserts. The registry is an immutable map fixed after startup. The buffer address in the control record is not represented.
- Release builds (`NDEBUG`) are not modelled. There `pending`, its checks and the `assert` at follow/follow.cc:356 do not exist, so a fallback after a completion reads from the lagging descriptor position and outputs bytes that were already delivered.
- Scheduler.Dispatch: a completion whose descriptor is not registered is a precondition, not a modelled outcome. The code dereferences `files.find(fd)->second` unchecked (follow/follow.cc:293), so the behaviour is undefined.
- Scheduler.Dispatch: the synchronous read's bytes are an input. The model does not tie them to the file's contents at the descriptor position.
- The descriptor position follows FreeBSD, where `aio_read` does not move it. POSIX leaves this unspecified.
- Output.Write: uses the corrected short-write loop (see Findings), so after a short write it outputs the rest of the block where follow/follow.cc:187 outputs its head again. `Output.WriteAgreesAsWritten` shows that the two agree whenever the block's first write takes all of it.
- Scheduler.Dispatch: inherits the corrected loop from `Output.Write`, for completions and fallback reads alike.
- Scheduler.Complete: the bytes of a completion are written with the corrected loop, so after a short write it outputs the rest of the block where the `write` at follow/follow.cc:310 outputs its head again.
- Scheduler.Initiate: a non-empty fallback read is written with the corrected loop, so after a short write it outputs the rest of the block where the `write` at follow/follow.cc:363 outputs its head again.
- Scheduler.Env: the bound of a read to the buffer size (512 KiB) is not carried by the inputs. Nothing in the dispatcher depends on it.
- The `long`-to-`int` cast of `udata` (follow/follow.cc:292) is not modelled. The value placed there is always an `int` descriptor, so the cast is an identity.
- Network sources are not modelled. The code only opens paths read-only.
- echod is modelled only in part:
  - `EchoServer`, `io_accept`, socket setup, libev registration, `signal_cb` and `main` are left out.
  - The `total_clients` counter and its `printf` are left out.
  - The destructor's `close` is not modelled.
- Echo.Callback: `read_cb` deletes the instance on 0 bytes, and `callback` then goes on using it (echod/echod.cc:121, 79-86). That is undefined behaviour. The model ends the instance there and models nothing after it.
- Echo.ReadCb: the 4 KiB limit on one `recv` (echod/echod.cc:111-113) is not required of the input, because nothing in the handler depends on it.

## Findings

| source | as written | input that shows it | evidently intended | confidence | as-written member | corrected member |
|---|---|---|---|---|---|---|
| follow/follow.cc:187 | each retry after a short write sends again from the start of `buf` | a 4-byte block `1 2 3 4` on a sink whose first write takes 2 bytes outputs `1 2 1 2` | resume at `buf + sent`, outputting `1 2 3 4` | not executed; high, the loop never advances its source pointer | Output.SendAsWritten (shown by Output.ShortWriteRepeats) | Output.SendCorrected |

`Output.Write`, and through it `Scheduler.Dispatch`, uses the corrected loop.
It agrees with the program whenever the block's first write takes all of it
(`Output.NoShortWriteNoDifference`, `Output.WriteAgreesAsWritten`), which is
the usual case for a blocking standard output.

=== FILE: echo.dfy ===
/** echod's per-connection handler: bytes received from a client are queued
    as buffers and written back in order, each buffer possibly over several
    partial writes.  The socket calls are inputs; what the client has been
    sent so far is part of the state. */
module Echo {
  import opened Io

  // ---------------------------------------------------------------------
  // Buffer

  /** `Buffer`: a private copy of received bytes and the count already
      written (`len` is `|data|`). */
  datatype Buffer = Buffer(data: Bytes, pos: int)

  /** The position lies within the data. */
  predicate InRange(b: Buffer) {
    0 <= b.pos <= |b.data|
  }

  /** `Buffer(bytes, nbytes)`. */
  function NewBuffer(bytes: Bytes): (b: Buffer)
    ensures b.data == bytes && b.pos == 0
    ensures InRange(b) && NBytes(b) == |bytes| && DPos(b) == bytes
  {
    Buffer(bytes, 0)
  }

  /** `nbytes()`: what is left to write. */
  function NBytes(b: Buffer): int {
    |b.data| - b.pos
  }

  /** `dpos()`: the bytes from the write position on. */
  function DPos(b: Buffer): (rest: Bytes)
    requires InRange(b)
    ensures |rest| == NBytes(b)
    ensures b.data == b.data[..b.pos] + rest
  {
    b.data[b.pos..]
  }

  /** `bump(n)`: advance the write position by `n`, unchecked. */
  function Bump(b: Buffer, n: int): (r: Buffer)
    ensures r.data == b.data && r.pos == b.pos + n
    ensures NBytes(r) == NBytes(b) - n
    ensures InRange(b) && 0 <= n <= NBytes(b) ==> InRange(r)
  {
    b.(pos := b.pos + n)
  }

  /** Bumping by `n` consumes exactly the first `n` remaining bytes. */
  lemma BumpConsumes(b: Buffer, n: int)
    requires InRange(b) && 0 <= n <= NBytes(b)
    ensures InRange(Bump(b, n))
    ensures DPos(b) == DPos(b)[..n] + DPos(Bump(b, n))
  {
    assert DPos(b)[n..] == DPos(Bump(b, n));
  }

  // ---------------------------------------------------------------------
  // The write queue

  /** Every queued buffer still has bytes to write. */
  predicate QueueValid(q: seq<Buffer>) {
    forall i :: 0 <= i < |q| ==> 0 <= q[i].pos < |q[i].data|
  }

  /** The bytes still to be written, buffer after buffer, front first. */
  function Pending(q: seq<Buffer>): Bytes
    requires QueueValid(q)
  {
    if |q| == 0 then [] else DPos(q[0]) + Pending(q[1..])
  }

  /** Appending a buffer appends its remaining bytes. */
  lemma {:induction false} PendingAppend(q: seq<Buffer>, b: Buffer)
    requires QueueValid(q) && 0 <= b.pos < |b.data|
    ensures QueueValid(q + [b])
    ensures Pending(q + [b]) == Pending(q) + DPos(b)
  {
    if |q| > 0 {
      assert (q + [b])[1..] == q[1..] + [b];
      PendingAppend(q[1..], b);
    }
  }

  /** The interest the connection's watcher is armed with. */
  datatype Interest = Read | ReadWrite

  /** An `EchoInstance`: live with its queue, interest and everything sent to
      the client so far, or destroyed after the client closed. */
  datatype Instance =
    | Live(queue: seq<Buffer>, interest: Interest, sent: Bytes)
    | Destroyed

  /** A freshly accepted connection: empty queue, watching for reads. */
  const Accepted: Instance := Live([], Read, [])

  predicate Valid(inst: Instance) {
    inst.Live? ==> QueueValid(inst.queue)
  }

  /** Everything the instance still owes: sent bytes followed by the queue. */
  function Stream(inst: Instance): Bytes
    requires inst.Live? && Valid(inst)
  {
    inst.sent + Pending(inst.queue)
  }

  /** The queue after `n` more bytes of its front buffer were written: the
      front is advanced, and dropped once nothing of it is left. */
  function Advance(q: seq<Buffer>, n: int): (r: seq<Buffer>)
    requires |q| > 0 && QueueValid(q) && 0 <= n <= NBytes(q[0])
    ensures QueueValid(r)
    ensures n == NBytes(q[0]) ==> r == q[1..]
    ensures n < NBytes(q[0]) ==> r == [Bump(q[0], n)] + q[1..]
    ensures DPos(q[0])[..n] + Pending(r) == Pending(q)
  {
    var front' := Bump(q[0], n);
    BumpConsumes(q[0], n);
    var r := if NBytes(front') == 0 then q[1..] else [front'] + q[1..];
    assert Pending(r) == DPos(front') + Pending(q[1..]) by {
      if NBytes(front') != 0 {
        assert r[0] == front' && r[1..] == q[1..];
      } else {
        assert DPos(front') == [];
      }
    }
    assert (DPos(q[0])[..n] + DPos(front')) + Pending(q[1..])
        == DPos(q[0])[..n] + (DPos(front') + Pending(q[1..]));
    r
  }

  /** `write_cb`: with nothing queued, only re-arm for reads; otherwise one
      write(2) of the front buffer's remaining bytes, which on -1 changes
      nothing, and otherwise advances the front buffer, dropping it once it
      is written out. */
  function WriteCb(inst: Instance, w: WriteResult): (r: Instance)
    requires inst.Live? && Valid(inst)
    ensures r.Live? && Valid(r)
    ensures |inst.queue| == 0 ==> r == inst.(interest := Read)
    ensures |inst.queue| > 0 && w.WriteError? ==> r == inst
    ensures |inst.queue| > 0 && w.Capacity? ==>
      var front := inst.queue[0];
      var n := Written(w, NBytes(front));
      && r.interest == inst.interest
      && r.sent == inst.sent + DPos(front)[..n]
      && (n == NBytes(front) ==> r.queue == inst.queue[1..])
      && (n < NBytes(front) ==> r.queue == [Bump(front, n)] + inst.queue[1..])
    // The bytes owed to the client are exactly those owed before.
    ensures Stream(r) == Stream(inst)
  {
    if |inst.queue| == 0 then inst.(interest := Read)
    else
      var front := inst.queue[0];
      var n := Written(w, NBytes(front));
      if n == -1 then inst
      else
        var q := Advance(inst.queue, n);
        assert (inst.sent + DPos(front)[..n]) + Pending(q) == inst.sent + (DPos(front)[..n] + Pending(q));
        Live(q, inst.interest, inst.sent + DPos(front)[..n])
  }

  /** `read_cb`: one recv(2).  -1 changes nothing, 0 destroys the instance,
      otherwise the bytes are queued as one new buffer at the back. */
  function ReadCb(inst: Instance, recv: ReadResult): (r: Instance)
    requires inst.Live? && Valid(inst)
    ensures Valid(r)
    ensures recv.ReadError? ==> r == inst
    ensures recv == ReadBytes([]) <==> r.Destroyed?
    ensures recv.ReadBytes? && |recv.data| > 0 ==>
      r == inst.(queue := inst.queue + [NewBuffer(recv.data)])
    // The bytes owed grow by what arrived.
    ensures r.Live? ==> Stream(r) == Stream(inst) + Received(recv)
  {
    match recv
    case ReadError => inst
    case ReadBytes(data) =>
      if |data| == 0 then Destroyed
      else
        PendingAppend(inst.queue, NewBuffer(data));
        inst.(queue := inst.queue + [NewBuffer(data)])
  }

  /** The bytes a recv(2) delivered, none for -1. */
  function Received(recv: ReadResult): Bytes {
    match recv
    case ReadError => []
    case ReadBytes(data) => data
  }

  /** The libev event mask, EV_READ, EV_WRITE and EV_ERROR. */
  datatype Revents = Revents(read: bool, write: bool, error: bool)

  /** `callback`: on an error do nothing; otherwise serve a read, then a
      write, then watch for writes exactly while something is queued.  A
      read of 0 bytes ends the instance and nothing after it is modelled. */
  function Callback(inst: Instance, ev: Revents, recv: ReadResult, w: WriteResult): (r: Instance)
    requires inst.Live? && Valid(inst)
    ensures Valid(r)
    ensures ev.error ==> r == inst
    ensures r.Destroyed? <==> !ev.error && ev.read && recv == ReadBytes([])
    ensures r.Live? && !ev.error ==> (r.interest == Read <==> |r.queue| == 0)
    ensures r.Live? ==> Stream(r) == Stream(inst) + Arrived(ev, recv)
    ensures r.Live? && !ev.write ==> r.sent == inst.sent
    // The read is served before the write: bytes received on an empty
    // queue can go back out in the same callback.
    ensures (!ev.error && ev.read && ev.write && |inst.queue| == 0 && w.Capacity?
             && recv.ReadBytes? && |recv.data| > 0) ==>
      r.Live? && r.sent == inst.sent + recv.data[..Min(w.n, |recv.data|)]
  {
    if ev.error then inst
    else
      var afterRead := if ev.read then ReadCb(inst, recv) else inst;
      if afterRead.Destroyed? then Destroyed
      else
        var afterWrite := if ev.write then WriteCb(afterRead, w) else afterRead;
        afterWrite.(interest := if |afterWrite.queue| == 0 then Read else ReadWrite)
  }

  /** What one callback takes in from the client. */
  function Arrived(ev: Revents, recv: ReadResult): Bytes {
    if !ev.error && ev.read then Received(recv) else []
  }

  // ---------------------------------------------------------------------
  // Runs of callbacks

  /** One wake-up of the watcher with the outcomes of the calls it makes. */
  datatype Wake = Wake(ev: Revents, recv: ReadResult, w: WriteResult)

  /** Call the handler once per wake-up until it is destroyed. */
  function Serve(inst: Instance, wakes: seq<Wake>): (r: Instance)
    requires inst.Live? && Valid(inst)
    ensures Valid(r)
    decreases |wakes|
  {
    if |wakes| == 0 then inst
    else
      var next := Callback(inst, wakes[0].ev, wakes[0].recv, wakes[0].w);
      if next.Destroyed? then Destroyed else Serve(next, wakes[1..])
  }

  /** All bytes taken in over the wake-ups. */
  function Inbound(wakes: seq<Wake>): Bytes {
    if |wakes| == 0 then [] else Arrived(wakes[0].ev, wakes[0].recv) + Inbound(wakes[1..])
  }

  /** Concatenation regroups freely; proved apart, where the extensionality
      argument does not meet the callback's facts. */
  lemma Assoc(x: Bytes, y: Bytes, z: Bytes)
    ensures (x + y) + z == x + (y + z)
  {
  }

  /** FIFO conservation: over any run that leaves the instance alive, the
      bytes sent followed by the bytes still queued are the bytes owed at the
      start followed by every byte received, in order. */
  lemma {:induction false} Conservation(inst: Instance, wakes: seq<Wake>)
    requires inst.Live? && Valid(inst)
    ensures Serve(inst, wakes).Live? ==> Stream(Serve(inst, wakes)) == Stream(inst) + Inbound(wakes)
    decreases |wakes|
  {
    if |wakes| == 0 {
      assert Stream(inst) + [] == Stream(inst);
    } else {
      var next := Callback(inst, wakes[0].ev, wakes[0].recv, wakes[0].w);
      if next.Live? {
        var a := Arrived(wakes[0].ev, wakes[0].recv);
        var later := Inbound(wakes[1..]);
        var last := Serve(next, wakes[1..]);
        assert Serve(inst, wakes) == last;
        assert Inbound(wakes) == a + later;
        assert Stream(next) == Stream(inst) + a;
        Conservation(next, wakes[1..]);
        if last.Live? {
          var s0, s1, sf := Stream(inst), Stream(next), Stream(last);
          assert sf == s1 + later;
          Assoc(s0, a, later);
        }
      }
    }
  }

  /** A connection echoes in order: what it has sent is always a prefix of
      what it has received, and what it has received but not sent is queued. */
  lemma EchoesInOrder(wakes: seq<Wake>)
    ensures Serve(Accepted, wakes).Live? ==>
      Serve(Accepted, wakes).sent + Pending(Serve(Accepted, wakes).queue) == Inbound(wakes)
    ensures Serve(Accepted, wakes).Live? ==> Serve(Accepted, wakes).sent <= Inbound(wakes)
  {
    Conservation(Accepted, wakes);
  }

  /** Nothing is ever sent that did not first arrive: with only writable
      wake-ups an empty connection stays empty. */
  lemma {:induction false} NothingFromNothing(inst: Instance, wakes: seq<Wake>)
    requires inst.Live? && Valid(inst) && |inst.queue| == 0
    requires forall i :: 0 <= i < |wakes| ==> !wakes[i].ev.read
    ensures Serve(inst, wakes).Live?
    ensures Serve(inst, wakes).sent == inst.sent && Serve(inst, wakes).queue == []
    decreases |wakes|
  {
    if |wakes| > 0 {
      NothingFromNothing(Callback(inst, wakes[0].ev, wakes[0].recv, wakes[0].w), wakes[1..]);
    }
  }
}

=== FILE: finfo.dfy ===
/** A watched source (`finfo_t`) and the registry of sources keyed by
    descriptor, with the pieces built from it once at startup: the banner
    text, the asynchronous-read control record and the kqueue interest
    list. */
module FileInfo {
  import opened Io
  import opened KFlags

  /** Capacity of every source's read buffer (FDBUF_SZ, 512 KiB). */
  const BufSize: nat := 512 * 1024

  /** SIGEV_KEVENT: completion is posted to a kqueue. */
  const SigevKevent: int := 3
  /** EVFILT_VNODE and EVFILT_AIO. */
  const EvfiltVnode: int := -4
  const EvfiltAio: int := -3

  /** The fields of `struct aiocb` that `fill_cb` sets.  The buffer address
      is not represented: every request of a source targets that source's
      own buffer. */
  datatype AioCb = AioCb(
    fildes: int,
    offset: int,
    nbytes: nat,
    notifyKqueue: int,
    notify: int,
    sigval: int)

  /** A control record after `bzero`. */
  const ZeroCb := AioCb(0, 0, 0, 0, 0, 0)

  /** One watched source. `pending` is the debug-build flag that is true
      while an asynchronous read of this source is outstanding.  `position`
      is not a field of `finfo_t` but the descriptor's own file position,
      which `lseek(fd, 0, SEEK_CUR)` reports: read(2) advances it, while
      aio_read(2) reads at `aio_offset` and leaves it where it is (as FreeBSD
      does; POSIX leaves it unspecified). */
  datatype Source = Source(
    fd: int,
    name: Bytes,
    offset: int,
    banner: Bytes,
    pending: bool,
    cb: AioCb,
    position: int)

  /** "\n==== " */
  const BannerOpen: Bytes := [10, 61, 61, 61, 61, 32]
  /** " ====\n\n" */
  const BannerClose: Bytes := [32, 61, 61, 61, 61, 10, 10]

  /** The separator printed before a block from `name` after a switch of
      source: `"\n==== %s ====\n\n"`. */
  function Banner(name: Bytes): (b: Bytes)
    ensures |b| == |name| + 13
    ensures b[..6] == BannerOpen && b[6..6 + |name|] == name && b[6 + |name|..] == BannerClose
  {
    BannerOpen + name + BannerClose
  }

  /** `finfo_t(fd, name)`: offset at the current end of the file, where
      the `lseek` that found it also left the descriptor, banner built once,
      nothing outstanding. */
  function NewSource(fd: int, name: Bytes, end: nat): (s: Source)
    ensures s.fd == fd && s.name == name && s.offset == end
    ensures s.banner == Banner(name) && |s.banner| == |name| + 13
    ensures !s.pending
    ensures s.position == s.offset
  {
    Source(fd, name, end, Banner(name), false, ZeroCb, end)
  }

  /** `fill_cb(kq)`: a request to read a full buffer from the source's
      descriptor at its offset, whose completion is posted to `kq` carrying
      the descriptor as its value. */
  function FillCb(s: Source, kq: int): (cb: AioCb)
    ensures cb.fildes == s.fd && cb.offset == s.offset && cb.nbytes == BufSize
    ensures cb.notifyKqueue == kq && cb.notify == SigevKevent && cb.sigval == s.fd
  {
    ZeroCb.(fildes := s.fd, offset := s.offset, nbytes := BufSize,
            notifyKqueue := kq, notify := SigevKevent, sigval := s.fd)
  }

  /** Every record is filed under its own descriptor and carries the banner
      of its name. */
  ghost predicate WellFormed(files: map<int, Source>) {
    forall fd :: fd in files ==> fd >= 0 && files[fd].fd == fd && files[fd].banner == Banner(files[fd].name)
  }

  predicate StrictlyAscending(s: seq<int>) {
    forall i, j :: 0 <= i < j < |s| ==> s[i] < s[j]
  }

  /** `fileinfo_t`, a `std::map` from descriptor to record: the records, and
      the keys in the map's iteration order. */
  datatype Registry = Registry(fds: seq<int>, files: map<int, Source>)

  ghost predicate Ordered(reg: Registry) {
    && StrictlyAscending(reg.fds)
    && (forall fd :: fd in reg.files <==> fd in reg.fds)
    && WellFormed(reg.files)
  }

  /** `x` added to an ascending key sequence at its place. */
  function Insert(s: seq<int>, x: int): (r: seq<int>)
    requires StrictlyAscending(s)
    ensures StrictlyAscending(r)
    ensures forall y :: y in r <==> y in s || y == x
  {
    if |s| == 0 then [x]
    else if x == s[0] then s
    else if x < s[0] then [x] + s
    else
      var tail := Insert(s[1..], x);
      var r := [s[0]] + tail;
      assert forall y :: y in tail ==> s[0] < y by {
        forall y | y in tail ensures s[0] < y {
          if y in s[1..] {
            var k :| 0 <= k < |s[1..]| && s[1..][k] == y;
            assert s[1 + k] == y;
          }
        }
      }
      forall i, j | 0 <= i < j < |r| ensures r[i] < r[j] {
        assert r[j] == tail[j - 1];
        if i > 0 {
          assert r[i] == tail[i - 1];
        } else {
          assert tail[j - 1] in tail;
        }
      }
      r
  }

  /** What `open` and `lseek` report for one path named on the command
      line: a failure, or its descriptor and end-of-file offset. */
  datatype Opening = CannotOpen(path: Bytes) | Opened(fd: nat, name: Bytes, end: nat)

  /** `make_fileinfo` either exits naming the first path it cannot open, or
      yields the registry. */
  datatype Startup = OpenFailed(path: Bytes) | Ready(reg: Registry)

  /** `files.emplace(fd, finfo_t(fd, name))`: a descriptor already present
      keeps its first record. */
  function Emplace(reg: Registry, fd: nat, name: Bytes, end: nat): (r: Registry)
    requires Ordered(reg)
    ensures Ordered(r)
    ensures r.files.Keys == reg.files.Keys + {fd}
    ensures fd in reg.files ==> r == reg
    ensures fd !in reg.files ==> r.files[fd] == NewSource(fd, name, end)
    ensures forall k :: k in reg.files ==> r.files[k] == reg.files[k]
  {
    if fd in reg.files then reg
    else Registry(Insert(reg.fds, fd), reg.files[fd := NewSource(fd, name, end)])
  }

  /** The descriptors of the paths opened. */
  function Descriptors(paths: seq<Opening>): set<int> {
    set i | 0 <= i < |paths| && paths[i].Opened? :: paths[i].fd
  }

  /** `make_fileinfo`: the paths are opened in order; the first that cannot
      be opened ends the program, otherwise there is one record per distinct
      descriptor, none with a read outstanding. */
  function MakeFileinfo(paths: seq<Opening>): (r: Startup)
    ensures r.Ready? <==> forall i :: 0 <= i < |paths| ==> paths[i].Opened?
    ensures r.OpenFailed? ==> CannotOpen(r.path) in paths
    ensures r.Ready? ==> Ordered(r.reg)
    ensures r.Ready? ==> r.reg.files.Keys == Descriptors(paths)
    ensures r.Ready? ==> forall fd :: fd in r.reg.files ==> !r.reg.files[fd].pending
    // Each record is built from the first opening of its descriptor.
    ensures r.Ready? ==> forall fd :: fd in r.reg.files ==> FirstOpening(paths, fd, r.reg.files[fd])
  {
    if |paths| == 0 then Ready(Registry([], map[]))
    else
      var last := paths[|paths| - 1];
      var prefix := paths[..|paths| - 1];
      OpenedSnoc(prefix, last);
      assert paths == prefix + [last];
      match MakeFileinfo(prefix)
      case OpenFailed(path) => OpenFailed(path)
      case Ready(prev) =>
        match last
        case CannotOpen(path) => OpenFailed(path)
        case Opened(fd, name, end) =>
          var reg := Emplace(prev, fd, name, end);
          assert forall k :: k in reg.files ==> FirstOpening(paths, k, reg.files[k]) by {
            forall k | k in reg.files ensures FirstOpening(paths, k, reg.files[k]) {
              if k in prev.files {
                FirstOpeningExtends(prefix, last, k, prev.files[k]);
              } else {
                FirstOpeningNew(prefix, fd, name, end);
              }
            }
          }
          Ready(reg)
  }

  /** A later path does not change which opening of a descriptor is first. */
  lemma FirstOpeningExtends(prefix: seq<Opening>, last: Opening, fd: int, s: Source)
    requires FirstOpening(prefix, fd, s)
    ensures FirstOpening(prefix + [last], fd, s)
  {
    var paths := prefix + [last];
    var i :| 0 <= i < |prefix| && prefix[i].Opened? && prefix[i].fd == fd
      && s == NewSource(fd, prefix[i].name, prefix[i].end)
      && forall j :: 0 <= j < i ==> !(prefix[j].Opened? && prefix[j].fd == fd);
    assert paths[i] == prefix[i];
    assert forall j :: 0 <= j < i ==> paths[j] == prefix[j];
  }

  /** A descriptor no earlier path opened is first opened by the last one. */
  lemma FirstOpeningNew(prefix: seq<Opening>, fd: nat, name: Bytes, end: nat)
    requires fd !in Descriptors(prefix)
    ensures FirstOpening(prefix + [Opened(fd, name, end)], fd, NewSource(fd, name, end))
  {
    var paths := prefix + [Opened(fd, name, end)];
    assert paths[|prefix|] == Opened(fd, name, end);
    forall j | 0 <= j < |prefix| ensures !(paths[j].Opened? && paths[j].fd == fd) {
      assert paths[j] == prefix[j];
      assert prefix[j].Opened? ==> prefix[j].fd in Descriptors(prefix);
    }
  }

  /** `s` is the record of the first path that opened as `fd`. */
  ghost predicate FirstOpening(paths: seq<Opening>, fd: int, s: Source) {
    exists i :: 0 <= i < |paths| && paths[i].Opened? && paths[i].fd == fd
      && s == NewSource(fd, paths[i].name, paths[i].end)
      && forall j :: 0 <= j < i ==> !(paths[j].Opened? && paths[j].fd == fd)
  }

  /** How the facts `MakeFileinfo` states about its input extend by one path. */
  lemma OpenedSnoc(prefix: seq<Opening>, last: Opening)
    ensures (forall i :: 0 <= i < |prefix + [last]| ==> (prefix + [last])[i].Opened?)
        <==> (forall i :: 0 <= i < |prefix| ==> prefix[i].Opened?) && last.Opened?
    ensures forall o :: o in prefix + [last] <==> o in prefix || o == last
    ensures Descriptors(prefix + [last])
        == Descriptors(prefix) + (if last.Opened? then {last.fd} else {})
  {
    var paths := prefix + [last];
    assert forall i :: 0 <= i < |prefix| ==> paths[i] == prefix[i];
    assert paths[|prefix|] == last;
  }

  /** The first path that cannot be opened is the one named: later failures
      are never reached. */
  lemma {:induction false} FirstFailureReported(paths: seq<Opening>, k: nat)
    requires k < |paths| && paths[k].CannotOpen?
    requires forall i :: 0 <= i < k ==> paths[i].Opened?
    ensures MakeFileinfo(paths) == OpenFailed(paths[k].path)
    decreases |paths|
  {
    if k < |paths| - 1 {
      var prefix := paths[..|paths| - 1];
      FirstFailureReported(prefix, k);
    } else {
      var prefix := paths[..|paths| - 1];
      assert forall i :: 0 <= i < |prefix| ==> prefix[i].Opened?;
    }
  }

  // ---------------------------------------------------------------------
  // kqueue events

  /** A `struct kevent`; `udata` 0 stands for a null pointer. */
  datatype Kevent = Kevent(ident: int, filter: int, flags: UShort, fflags: UInt, data: int, udata: int)

  /** The interest `make_events` registers for descriptor `fd`: vnode
      writes, EV_ADD | EV_CLEAR, NOTE_WRITE. */
  function WatchWrites(fd: int): Kevent {
    Kevent(fd, EvfiltVnode, 0x21, 0x2, 0, 0)
  }

  /** `make_events`: one interest entry per registered source, in ascending
      descriptor order. */
  function MakeEvents(reg: Registry): (r: seq<Kevent>)
    requires Ordered(reg)
    ensures |r| == |reg.fds|
    ensures forall i :: 0 <= i < |r| ==> r[i].ident in reg.files && r[i] == WatchWrites(r[i].ident)
    ensures forall fd :: fd in reg.files ==> exists i :: 0 <= i < |r| && r[i].ident == fd
    ensures forall i, j :: 0 <= i < j < |r| ==> r[i].ident < r[j].ident
  {
    var r := seq(|reg.fds|, i requires 0 <= i < |reg.fds| => WatchWrites(reg.fds[i]));
    forall fd | fd in reg.files
      ensures exists i :: 0 <= i < |r| && r[i].ident == fd
    {
      var i :| 0 <= i < |reg.fds| && reg.fds[i] == fd;
      assert r[i].ident == fd;
    }
    r
  }

  /** The interest flags print as the two flags registered, and request
      only NOTE_WRITE. */
  lemma WatchWritesPrinted(fd: int)
    ensures FlagsStr(WatchWrites(fd).flags) == EvAdd.name + " | " + EvClear.name
  {
    InterestFlagsPrinted(WatchWrites(fd).flags);
  }
}

=== FILE: followrun.dfy ===
/** follow's main loop reduced to what it does with events: dispatch them
    one after another.  Properties of whole runs: the registry stays fixed,
    offsets only advance, output only grows, and no source ever has two
    asynchronous reads outstanding. */
module FollowRun {
  import opened Io
  import opened KFlags
  import opened FileInfo
  import opened Output
  import opened Scheduler

  /** One event together with the outcomes of the calls its dispatch makes. */
  datatype Tick = Tick(ev: Event, env: Env)

  datatype Run = Halted(reason: Reason, out: Bytes) | Running(st: Follow)

  predicate Admissible(files: map<int, Source>, ticks: seq<Tick>) {
    forall i :: 0 <= i < |ticks| ==> Deliverable(files, ticks[i].ev)
  }

  /** The state at startup: no block written yet. */
  function Start(reg: Registry): (st: Follow)
    requires Ordered(reg)
    ensures Valid(st) && st.lastfd == -1 && st.out == []
  {
    Follow(reg.files, -1, [])
  }

  /** At startup nothing is outstanding: the registry `make_fileinfo` builds
      meets the tracking invariant against a kernel that holds no request. */
  lemma StartTracked(paths: seq<Opening>)
    ensures MakeFileinfo(paths).Ready? ==> Tracks(Start(MakeFileinfo(paths).reg), multiset{})
  {
  }

  /** Dispatch the events in order until one is fatal. */
  function RunEvents(st: Follow, kq: int, ticks: seq<Tick>): (r: Run)
    requires Valid(st) && Admissible(st.files, ticks)
    ensures r.Running? ==> Valid(r.st) && SameSources(st, r.st) && OffsetsGrow(st, r.st)
    ensures r.Running? ==> st.out <= r.st.out
    ensures r.Halted? ==> st.out <= r.out
    decreases |ticks|
  {
    if |ticks| == 0 then Running(st)
    else
      match Dispatch(st, kq, ticks[0].ev, ticks[0].env)
      case Fatal(reason, out) => Halted(reason, out)
      case Ok(next, _) =>
        assert Admissible(next.files, ticks[1..]);
        var r := RunEvents(next, kq, ticks[1..]);
        assert r.Running? ==> OffsetsGrow(st, r.st) by {
          if r.Running? {
            forall fd | fd in st.files
              ensures st.files[fd].offset <= r.st.files[fd].offset
            {
              assert st.files[fd].offset <= next.files[fd].offset;
            }
          }
        }
        r
  }

  // ---------------------------------------------------------------------
  // At most one outstanding read per source.

  /** The kernel's side: how many asynchronous reads of each descriptor are
      outstanding. */
  type InFlight = multiset<int>

  /** `pending` tells the truth about the kernel: it is set exactly for the
      sources with one outstanding read, and nothing else is outstanding. */
  ghost predicate Tracks(st: Follow, inflight: InFlight) {
    forall fd :: inflight[fd] == (if fd in st.files && st.files[fd].pending then 1 else 0)
  }

  /** The kernel after an event: a completion retires one request of its
      descriptor; an accepted submission adds one. */
  function Kernel(inflight: InFlight, ev: Event, submitted: Option<AioCb>): InFlight {
    (if ev.Completion? then inflight - multiset{ev.fd} else inflight)
      + (if submitted.Some? then multiset{submitted.value.fildes} else multiset{})
  }

  /** One dispatch keeps `pending` truthful, and never submits a read for a
      source that already has one outstanding.  A completion the kernel
      delivers always finds its source pending, so the "unexpected aio
      complete" trace cannot fire. */
  lemma DispatchTracked(st: Follow, inflight: InFlight, kq: int, ev: Event, env: Env)
    requires Valid(st) && Deliverable(st.files, ev)
    requires Tracks(st, inflight)
    requires ev.Completion? ==> inflight[ev.fd] > 0
    ensures ev.Completion? ==> st.files[ev.fd].pending
    ensures Dispatch(st, kq, ev, env).Ok? ==>
      Tracks(Dispatch(st, kq, ev, env).next, Kernel(inflight, ev, Dispatch(st, kq, ev, env).submitted))
    ensures Dispatch(st, kq, ev, env).Ok? && Dispatch(st, kq, ev, env).submitted.Some? ==>
      inflight[Dispatch(st, kq, ev, env).submitted.value.fildes] == 0
  {
    var r := Dispatch(st, kq, ev, env);
    if r.Ok? {
      var k := Kernel(inflight, ev, r.submitted);
      var e := EventFd(ev);
      forall fd
        ensures k[fd] == (if fd in r.next.files && r.next.files[fd].pending then 1 else 0)
      {
        if fd != e {
          assert k[fd] == inflight[fd];
        }
      }
    }
  }

  /** The descriptors outstanding after the run, as the kernel counts them. */
  ghost function Outstanding(st: Follow, inflight: InFlight, kq: int, ticks: seq<Tick>): InFlight
    requires Valid(st) && Admissible(st.files, ticks)
    decreases |ticks|
  {
    if |ticks| == 0 then inflight
    else
      match Dispatch(st, kq, ticks[0].ev, ticks[0].env)
      case Fatal(_, _) => inflight
      case Ok(next, sub) =>
        assert Admissible(next.files, ticks[1..]);
        Outstanding(next, Kernel(inflight, ticks[0].ev, sub), kq, ticks[1..])
  }

  /** The kernel posts a completion only for a request it holds. */
  ghost predicate KernelHonest(st: Follow, inflight: InFlight, kq: int, ticks: seq<Tick>)
    requires Valid(st) && Admissible(st.files, ticks)
    decreases |ticks|
  {
    if |ticks| == 0 then true
    else
      && (ticks[0].ev.Completion? ==> inflight[ticks[0].ev.fd] > 0)
      && match Dispatch(st, kq, ticks[0].ev, ticks[0].env)
         case Fatal(_, _) => true
         case Ok(next, sub) =>
           assert Admissible(next.files, ticks[1..]);
           KernelHonest(next, Kernel(inflight, ticks[0].ev, sub), kq, ticks[1..])
  }

  /** Over any run, `pending` stays truthful, so no descriptor ever has more
      than one asynchronous read outstanding. */
  lemma {:induction false} AtMostOneOutstanding(st: Follow, inflight: InFlight, kq: int, ticks: seq<Tick>)
    requires Valid(st) && Admissible(st.files, ticks)
    requires Tracks(st, inflight) && KernelHonest(st, inflight, kq, ticks)
    ensures RunEvents(st, kq, ticks).Running? ==>
      Tracks(RunEvents(st, kq, ticks).st, Outstanding(st, inflight, kq, ticks))
    ensures forall fd :: Outstanding(st, inflight, kq, ticks)[fd] <= 1
    decreases |ticks|
  {
    if |ticks| == 0 {
      assert forall fd :: inflight[fd] <= 1;
    } else {
      var t := ticks[0];
      DispatchTracked(st, inflight, kq, t.ev, t.env);
      match Dispatch(st, kq, t.ev, t.env)
      case Fatal(_, _) =>
        assert forall fd :: inflight[fd] <= 1;
      case Ok(next, sub) =>
        assert Admissible(next.files, ticks[1..]);
        AtMostOneOutstanding(next, Kernel(inflight, t.ev, sub), kq, ticks[1..]);
    }
  }

  // ---------------------------------------------------------------------
  // The synchronous fallback against the asynchronous path.

  /** `st` with the descriptor of `fd` moved on by `n` bytes, as a
      synchronous read of `n` bytes moves it and an asynchronous one does
      not. */
  function Moved(st: Follow, fd: int, n: nat): (r: Follow)
    requires fd in st.files
    ensures r.files.Keys == st.files.Keys
  {
    st.(files := st.files[fd := st.files[fd].(position := st.files[fd].position + n)])
  }

  /** A dispatch's outcome with the descriptor of `fd` moved on by `n`. */
  function Seeked(s: Step, fd: int, n: nat): Step {
    if s.Ok? && fd in s.next.files then Ok(Moved(s.next, fd, n), s.submitted) else s
  }

  /** The state an accepted request leaves once it completes, before its
      bytes are written: nothing outstanding, the control record filled. */
  function Completed(st: Follow, kq: int, fd: int): Follow
    requires fd in st.files
  {
    st.(files := st.files[fd := st.files[fd].(pending := false, cb := FillCb(st.files[fd], kq))])
  }

  /** The state a refused request leaves before its fallback read of `n`
      bytes is written: the same, with the descriptor moved by the read. */
  function Refused(st: Follow, kq: int, fd: int, n: nat): Follow
    requires Valid(st) && fd in st.files
  {
    var file := st.files[fd];
    SetSource(st, fd, file.(pending := false, cb := FillCb(file, kq), position := file.position + n))
  }

  lemma RefusedIsMovedCompleted(st: Follow, kq: int, fd: int, n: nat)
    requires Valid(st) && fd in st.files
    ensures Refused(st, kq, fd, n) == Moved(Completed(st, kq, fd), fd, n)
  {
    var c := Completed(st, kq, fd);
    assert c.files[fd].(position := c.files[fd].position + n)
        == st.files[fd].(pending := false, cb := FillCb(st.files[fd], kq), position := st.files[fd].position + n);
    assert Moved(c, fd, n).files == Refused(st, kq, fd, n).files;
  }

  /** An accepted request followed by its completion with `data` writes
      `data` from the completed state. */
  lemma AcceptedThenCompleted(st: Follow, kq: int, fd: int, flags: UShort, data: Bytes,
                              accepted: Env, completed: Env)
    requires Valid(st) && fd in st.files && fd != 0 && !st.files[fd].pending && !HasError(flags)
    requires accepted.aioAccepted && completed.aioReturn == ReadBytes(data)
    ensures Dispatch(st, kq, Readiness(fd, flags), accepted).Ok?
    ensures Valid(Completed(st, kq, fd))
    ensures Dispatch(Dispatch(st, kq, Readiness(fd, flags), accepted).next, kq, Completion(fd, flags), completed)
         == Emit(Completed(st, kq, fd), fd, data, completed.sink)
  {
    var file := st.files[fd];
    var first := Dispatch(st, kq, Readiness(fd, flags), accepted);
    assert first.next == st.(files := st.files[fd := file.(pending := true, cb := FillCb(file, kq))]);
    assert first.next.(files := first.next.files[fd := first.next.files[fd].(pending := false)])
        == Completed(st, kq, fd);
  }

  /** A refused request whose fallback reads `data` writes `data` from the
      refused state. */
  lemma FallbackEmits(st: Follow, kq: int, fd: int, flags: UShort, env: Env, data: Bytes)
    requires Valid(st) && fd in st.files && !st.files[fd].pending && !HasError(flags) && Fallback(st, fd, env)
    requires env.syncRead == ReadBytes(data) && |data| > 0
    ensures Valid(Refused(st, kq, fd, |data|))
    ensures Dispatch(st, kq, Readiness(fd, flags), env) == Emit(Refused(st, kq, fd, |data|), fd, data, env.sink)
  {
    InitiateFallback(st, kq, fd, env, data);
  }

  /** The readiness branch's fallback, on its own. */
  lemma InitiateFallback(st: Follow, kq: int, fd: int, env: Env, data: Bytes)
    requires Valid(st) && fd in st.files && !st.files[fd].pending && Fallback(st, fd, env)
    requires env.syncRead == ReadBytes(data) && |data| > 0
    ensures Valid(Refused(st, kq, fd, |data|))
    ensures Initiate(st, kq, fd, env) == Emit(Refused(st, kq, fd, |data|), fd, data, env.sink)
  {
  }

  /** Where the descriptor stands plays no part in writing a block. */
  lemma EmitIgnoresPosition(st: Follow, fd: int, data: Bytes, sink: Sink, n: nat)
    requires Valid(st) && fd in st.files
    ensures Valid(Moved(st, fd, n))
    ensures Emit(Moved(st, fd, n), fd, data, sink) == Seeked(Emit(st, fd, data, sink), fd, n)
  {
    WriteIgnoresPosition(st, fd, data, sink, n);
  }

  /** The same for `Write`: a failure is the same failure, and a success
      the same state with the descriptor moved. */
  lemma WriteIgnoresPosition(st: Follow, fd: int, data: Bytes, sink: Sink, n: nat)
    requires fd in st.files
    ensures Write(st, fd, data, sink).SinkFailed? ==>
      Write(Moved(st, fd, n), fd, data, sink) == Write(st, fd, data, sink)
    ensures Write(st, fd, data, sink).Wrote? ==>
      Write(Moved(st, fd, n), fd, data, sink) == Wrote(Moved(Write(st, fd, data, sink).next, fd, n))
  {
    var moved := Moved(st, fd, n);
    assert BannerPart(moved, fd, data, sink) == BannerPart(st, fd, data, sink);
    assert BlockSink(moved, fd, |data|, sink) == BlockSink(st, fd, |data|, sink);
    var w := Write(st, fd, data, sink);
    var wm := Write(moved, fd, data, sink);
    if w.Wrote? {
      assert wm.Wrote?;
      assert wm.next.files == Moved(w.next, fd, n).files;
    }
  }

  /** A refused aio_read whose fallback reads `data` ends where an accepted
      aio_read followed by its completion with `data` ends: same output,
      offsets, `lastfd`, control records and `pending`.  The one difference
      is the descriptor, which only the synchronous read moves. */
  lemma FallbackMatchesAsync(st: Follow, kq: int, fd: int, flags: UShort, data: Bytes,
                             refused: Env, accepted: Env, completed: Env)
    requires Valid(st) && fd in st.files && fd != 0 && !st.files[fd].pending && !HasError(flags)
    requires st.files[fd].position == st.files[fd].offset
    requires |data| > 0
    requires !refused.aioAccepted && refused.cancel != Canceled && refused.syncRead == ReadBytes(data)
    requires accepted.aioAccepted
    requires completed.aioReturn == ReadBytes(data) && completed.sink == refused.sink
    ensures Dispatch(st, kq, Readiness(fd, flags), accepted).Ok?
    ensures Seeked(Dispatch(Dispatch(st, kq, Readiness(fd, flags), accepted).next, kq, Completion(fd, flags), completed),
                   fd, |data|)
         == Dispatch(st, kq, Readiness(fd, flags), refused)
  {
    AcceptedThenCompleted(st, kq, fd, flags, data, accepted, completed);
    FallbackEmits(st, kq, fd, flags, refused, data);
    RefusedIsMovedCompleted(st, kq, fd, |data|);
    EmitIgnoresPosition(Completed(st, kq, fd), fd, data, refused.sink, |data|);
  }

  /** Once an asynchronous read has delivered bytes, the descriptor lags
      behind the offset by that many, so the next refused request for the
      source trips the debug build's assert instead of reading. */
  lemma FallbackAfterCompletionAborts(st: Follow, kq: int, fd: int, flags: UShort, data: Bytes,
                                      accepted: Env, completed: Env, refused: Env)
    requires Valid(st) && fd in st.files && fd != 0 && !st.files[fd].pending && !HasError(flags)
    requires st.files[fd].position == st.files[fd].offset
    requires accepted.aioAccepted && completed.aioReturn == ReadBytes(data) && |data| > 0 && completed.sink == []
    requires !refused.aioAccepted && refused.cancel != Canceled
    ensures Dispatch(st, kq, Readiness(fd, flags), accepted).Ok?
    ensures Dispatch(Dispatch(st, kq, Readiness(fd, flags), accepted).next, kq, Completion(fd, flags), completed).Ok?
    ensures
      var after := Dispatch(Dispatch(st, kq, Readiness(fd, flags), accepted).next, kq,
                            Completion(fd, flags), completed).next;
      && after.files[fd].offset == after.files[fd].position + |data|
      && Dispatch(after, kq, Readiness(fd, flags), refused) == Fatal(OffsetMismatch, after.out)
  {
    var first := Dispatch(st, kq, Readiness(fd, flags), accepted);
    assert first.next.files[fd].position == st.files[fd].position;
    var second := Dispatch(first.next, kq, Completion(fd, flags), completed);
    assert second.Ok?;
    assert second.next.files[fd].position == st.files[fd].position;
    assert second.next.files[fd].offset == st.files[fd].offset + |data|;
  }

  /** The paths differ also on a read of zero bytes.  A completion with no
      bytes still records its source as the last one written; a fallback
      read of no bytes returns before that. */
  lemma EmptyReadsDiffer(st: Follow, kq: int, fd: int, flags: UShort,
                         refused: Env, accepted: Env, completed: Env)
    requires Valid(st) && fd in st.files && fd != 0 && !st.files[fd].pending && !HasError(flags)
    requires st.lastfd != fd && st.files[fd].position == st.files[fd].offset
    requires !refused.aioAccepted && refused.cancel != Canceled && refused.syncRead == ReadBytes([])
    requires accepted.aioAccepted
    requires completed.aioReturn == ReadBytes([])
    ensures Dispatch(st, kq, Readiness(fd, flags), refused).Ok?
    ensures Dispatch(st, kq, Readiness(fd, flags), refused).next.lastfd == st.lastfd
    ensures Dispatch(st, kq, Readiness(fd, flags), accepted).Ok?
    ensures Dispatch(Dispatch(st, kq, Readiness(fd, flags), accepted).next, kq, Completion(fd, flags), completed)
         .Ok?
    ensures Dispatch(Dispatch(st, kq, Readiness(fd, flags), accepted).next, kq, Completion(fd, flags), completed)
         .next.lastfd == fd
  {
  }

  /** The difference is visible on standard output: after an empty read of
      `fd`, the next block from the source written before it carries a
      banner on the asynchronous path and none on the fallback path. */
  lemma EmptyReadsChangeBanners(st: Follow, kq: int, fd: int, flags: UShort,
                                refused: Env, accepted: Env, completed: Env, data: Bytes)
    requires Valid(st) && fd in st.files && fd != 0 && !st.files[fd].pending && !HasError(flags)
    requires st.files[fd].position == st.files[fd].offset
    requires st.lastfd != -1 && st.lastfd != fd && |data| > 0
    requires !refused.aioAccepted && refused.cancel != Canceled && refused.syncRead == ReadBytes([])
    requires accepted.aioAccepted
    requires completed.aioReturn == ReadBytes([])
    ensures Dispatch(st, kq, Readiness(fd, flags), refused).Ok?
    ensures Dispatch(Dispatch(st, kq, Readiness(fd, flags), accepted).next, kq, Completion(fd, flags), completed).Ok?
    ensures
      var viaSync := Dispatch(st, kq, Readiness(fd, flags), refused).next;
      var viaAio := Dispatch(Dispatch(st, kq, Readiness(fd, flags), accepted).next, kq,
                             Completion(fd, flags), completed).next;
      && Write(viaSync, st.lastfd, data, []).next.out == st.out + data
      && Write(viaAio, st.lastfd, data, []).next.out == st.out + st.files[st.lastfd].banner + data
  {
    EmptyReadsDiffer(st, kq, fd, flags, refused, accepted, completed);
    var viaSync := Dispatch(st, kq, Readiness(fd, flags), refused).next;
    var viaAio := Dispatch(Dispatch(st, kq, Readiness(fd, flags), accepted).next, kq,
                           Completion(fd, flags), completed).next;
    assert viaSync.lastfd == st.lastfd && viaSync.out == st.out;
    assert viaAio.lastfd == fd && viaAio.out == st.out;
    assert viaAio.files[st.lastfd] == st.files[st.lastfd];
    assert Write(viaSync, st.lastfd, data, []).next.out == st.out + data;
    assert Write(viaAio, st.lastfd, data, []).next.out == st.out + st.files[st.lastfd].banner + data;
  }

  // ---------------------------------------------------------------------
  // Banners across sources.

  /** A non-empty block from a source other than the last one written,
      on a sink that takes every request: banner, then the block. */
  lemma SwitchAnnounced(st: Follow, fd: int, data: Bytes)
    requires Valid(st) && fd in st.files && st.lastfd != -1 && st.lastfd != fd && |data| > 0
    ensures Write(st, fd, data, []).Wrote?
    ensures Write(st, fd, data, []).next.out == st.out + Banner(st.files[fd].name) + data
  {
  }

  /** Blocks from A, then B, then A again, from the start, on a sink that
      takes every request: the first block goes out bare, each switch is
      announced by the banner of the source switched to. */
  lemma SwitchingSources(st: Follow, a: int, b: int, a1: Bytes, b1: Bytes, a2: Bytes)
    requires Valid(st) && st.lastfd == -1 && st.out == []
    requires a in st.files && b in st.files && a != b
    requires |a1| > 0 && |b1| > 0 && |a2| > 0
    ensures Write(st, a, a1, []).Wrote?
    ensures Write(Write(st, a, a1, []).next, b, b1, []).Wrote?
    ensures Write(Write(Write(st, a, a1, []).next, b, b1, []).next, a, a2, []).Wrote?
    ensures Write(Write(Write(st, a, a1, []).next, b, b1, []).next, a, a2, []).next.out
         == a1 + Banner(st.files[b].name) + b1 + Banner(st.files[a].name) + a2
  {
    FirstBlockHasNoBanner(st, a, a1);
    var s1 := Write(st, a, a1, []).next;
    assert st.out + a1 == a1;
    assert s1.out == a1;
    assert s1.files[b] == st.files[b];
    WritePreserves(st, a, a1, []);
    SwitchAnnounced(s1, b, b1);
    var s2 := Write(s1, b, b1, []).next;
    WritePreserves(s1, b, b1, []);
    assert s2.out == a1 + Banner(st.files[b].name) + b1;
    assert s2.files[a].name == st.files[a].name;
    SwitchAnnounced(s2, a, a2);
  }
}

=== FILE: io.dfy ===
/** Values that cross the system-call boundary: bytes, and the outcomes of the
    read-like and write-like calls that the model receives as inputs instead
    of performing them. */
module Io {

  /** One octet, as read(2) and write(2) move them. */
  newtype byte = x: int | 0 <= x < 256

  type Bytes = seq<byte>

  function Min(a: int, b: int): (m: int)
    ensures m <= a && m <= b
    ensures m == a || m == b
  {
    if a <= b then a else b
  }

  /** What one read(2), aio_return(2) or recv(2) reports: -1, or the bytes it
      placed at the start of the caller's buffer (their count is the return
      value). */
  datatype ReadResult = ReadError | ReadBytes(data: Bytes)

  /** What one write(2) call meets on its descriptor: a failure (-1), or a
      descriptor that accepts at most `n` bytes on this call. */
  datatype WriteResult = WriteError | Capacity(n: nat)

  /** The return value of write(2) asked to send `requested` bytes. */
  function Written(w: WriteResult, requested: nat): (ret: int)
    ensures ret == -1 <==> w.WriteError?
    ensures w.Capacity? ==> 0 <= ret <= requested
    ensures w.Capacity? && w.n >= requested ==> ret == requested
  {
    match w
    case WriteError => -1
    case Capacity(n) => Min(n, requested)
  }

  /** The outcomes of successive write(2) calls on one sink, consumed in
      order.  Once the list is used up the sink accepts every request whole,
      which is how a blocking standard output normally behaves. */
  type Sink = seq<WriteResult>

  /** Return value of the next write(2) of `requested` bytes on `sink`. */
  function NextWrite(sink: Sink, requested: nat): (ret: int)
    ensures -1 <= ret <= requested
    ensures |sink| == 0 ==> ret == requested
    ensures ret == -1 <==> |sink| > 0 && sink[0].WriteError?
  {
    if |sink| == 0 then requested else Written(sink[0], requested)
  }

  /** No listed call on the sink returns -1. */
  predicate NeverFails(sink: Sink) {
    forall i :: 0 <= i < |sink| ==> sink[i].Capacity?
  }

  /** The next write(2) call on the sink returns -1. */
  predicate FailsNext(sink: Sink) {
    |sink| > 0 && sink[0].WriteError?
  }

  /** The sink after one write(2) call. */
  function AfterWrite(sink: Sink): (rest: Sink)
    ensures |sink| > 0 ==> |rest| == |sink| - 1
    ensures |sink| == 0 ==> rest == []
  {
    if |sink| == 0 then [] else sink[1..]
  }
}

=== FILE: kflags.dfy ===
/** The kqueue flag words of FreeBSD's <sys/event.h> and the two
    pretty-printers follow uses for its event traces: `flags_str` over the
    16-bit `flags` word and `fflags_str` over the 32-bit `fflags` word. */
module KFlags {

  newtype UShort = x: int | 0 <= x < 0x1_0000
  newtype UInt = x: int | 0 <= x < 0x1_0000_0000

  function Pow2(k: nat): (p: nat)
    ensures p >= 1
  {
    if k == 0 then 1 else 2 * Pow2(k - 1)
  }

  /** Bit `k` of `v` is one. */
  predicate BitSet(v: nat, k: nat) {
    (v / Pow2(k)) % 2 == 1
  }

  /** `v & (1 << k)`: the single-bit mask of position `k` applied to `v`. */
  function Mask(v: nat, k: nat): nat {
    if BitSet(v, k) then Pow2(k) else 0
  }

  /** A named single-bit constant: its value is `1 << shift`. */
  datatype FlagName = FlagName(shift: nat, name: string)

  function Value(e: FlagName): nat {
    Pow2(e.shift)
  }

  /** The bit position of EV_ERROR (0x4000), which neither printer names. */
  const EvErrorShift: nat := 14

  const EvAdd := FlagName(0, "EV_ADD")             // 0x0001
  const EvDelete := FlagName(1, "EV_DELETE")       // 0x0002
  const EvEnable := FlagName(2, "EV_ENABLE")       // 0x0004
  const EvDisable := FlagName(3, "EV_DISABLE")     // 0x0008
  const EvOneshot := FlagName(4, "EV_ONESHOT")     // 0x0010
  const EvClear := FlagName(5, "EV_CLEAR")         // 0x0020
  const EvReceipt := FlagName(6, "EV_RECEIPT")     // 0x0040
  const EvDispatch := FlagName(7, "EV_DISPATCH")   // 0x0080
  const EvEof := FlagName(15, "EV_EOF")            // 0x8000

  /** The `flags` names in the order `flags_str` compares against them. */
  const EvFlagNames: seq<FlagName> :=
    [EvAdd, EvEnable, EvDisable, EvDispatch, EvDelete, EvReceipt, EvOneshot, EvClear, EvEof]

  const NoteDelete := FlagName(0, "NOTE_DELETE")           // 0x0001
  const NoteWrite := FlagName(1, "NOTE_WRITE")             // 0x0002
  const NoteExtend := FlagName(2, "NOTE_EXTEND")           // 0x0004
  const NoteAttrib := FlagName(3, "NOTE_ATTRIB")           // 0x0008
  const NoteLink := FlagName(4, "NOTE_LINK")               // 0x0010
  const NoteRename := FlagName(5, "NOTE_RENAME")           // 0x0020
  const NoteRevoke := FlagName(6, "NOTE_REVOKE")           // 0x0040
  const NoteOpen := FlagName(7, "NOTE_OPEN")               // 0x0080
  const NoteClose := FlagName(8, "NOTE_CLOSE")             // 0x0100
  const NoteCloseWrite := FlagName(9, "NOTE_CLOSE_WRITE")  // 0x0200
  const NoteRead := FlagName(10, "NOTE_READ")              // 0x0400

  /** The `fflags` names in the order `fflags_str` compares against them. */
  const NoteNames: seq<FlagName> :=
    [NoteDelete, NoteWrite, NoteExtend, NoteAttrib, NoteLink, NoteRename,
     NoteRevoke, NoteOpen, NoteClose, NoteCloseWrite, NoteRead]

  /** Every constant is a distinct bit below the word width, with a name. */
  predicate WellFormed(table: seq<FlagName>, width: nat) {
    && (forall i :: 0 <= i < |table| ==> table[i].shift < width && |table[i].name| > 0)
    && (forall i, j :: 0 <= i < j < |table| ==> table[i].shift != table[j].shift)
  }

  // ---------------------------------------------------------------------
  // The printers as follow computes them: for each bit position from
  // the lowest, compare the masked word with every constant in table order,
  // appending " | NAME" on a match; finally drop the leading " | ".

  /** The constants the inner comparisons match at bit position `k`. */
  function Hits(v: nat, k: nat, table: seq<FlagName>): seq<FlagName> {
    if |table| == 0 then []
    else (if Mask(v, k) == Value(table[0]) then [table[0]] else []) + Hits(v, k, table[1..])
  }

  /** The constants matched at positions `k` up to `width - 1`, in loop order. */
  function Scan(v: nat, k: nat, width: nat, table: seq<FlagName>): seq<FlagName>
    decreases width - k
  {
    if k >= width then [] else Hits(v, k, table) + Scan(v, k + 1, width, table)
  }

  /** The accumulated string: " | NAME" for every entry. */
  function Piped(es: seq<FlagName>): string {
    if |es| == 0 then "" else " | " + es[0].name + Piped(es[1..])
  }

  function Describe(v: nat, width: nat, table: seq<FlagName>): string {
    var s := Piped(Scan(v, 0, width, table));
    if |s| > 3 then s[3..] else ""
  }

  function FlagsStr(flags: UShort): string {
    Describe(flags as nat, 16, EvFlagNames)
  }

  function FflagsStr(fflags: UInt): string {
    Describe(fflags as nat, 32, NoteNames)
  }

  // ---------------------------------------------------------------------
  // What the printers mean, stated without the loop.

  function NamesOf(es: seq<FlagName>): (names: seq<string>)
    ensures |names| == |es|
    ensures forall i :: 0 <= i < |es| ==> names[i] == es[i].name
  {
    if |es| == 0 then [] else [es[0].name] + NamesOf(es[1..])
  }

  /** The names separated by " | ". */
  function Join(names: seq<string>): string {
    if |names| == 0 then ""
    else if |names| == 1 then names[0]
    else names[0] + " | " + Join(names[1..])
  }

  /** `es` lists exactly the table constants whose bit is set in `v` (within
      the word width), in strictly ascending bit order. */
  ghost predicate Lists(table: seq<FlagName>, v: nat, width: nat, es: seq<FlagName>) {
    && (forall i :: 0 <= i < |es| ==> es[i] in table && es[i].shift < width && BitSet(v, es[i].shift))
    && (forall e :: e in table && e.shift < width && BitSet(v, e.shift) ==> e in es)
    && (forall i, j :: 0 <= i < j < |es| ==> es[i].shift < es[j].shift)
  }

  lemma {:induction false} Pow2Injective(a: nat, b: nat)
    requires Pow2(a) == Pow2(b)
    ensures a == b
  {
    if a != 0 && b != 0 {
      Pow2Injective(a - 1, b - 1);
    }
  }

  /** The comparison `(v & (1 << k)) == C` with a single-bit constant C holds
      exactly when C is bit `k` and that bit is set. */
  lemma MaskMatches(v: nat, k: nat, e: FlagName)
    ensures Mask(v, k) == Value(e) <==> e.shift == k && BitSet(v, k)
  {
    if Mask(v, k) == Value(e) {
      assert BitSet(v, k);
      Pow2Injective(k, e.shift);
    }
  }

  lemma {:induction false} HitsSpec(v: nat, k: nat, table: seq<FlagName>)
    ensures forall e :: e in Hits(v, k, table) <==> e in table && e.shift == k && BitSet(v, k)
    ensures |Hits(v, k, table)| <= |table|
  {
    if |table| > 0 {
      HitsSpec(v, k, table[1..]);
      MaskMatches(v, k, table[0]);
      assert table == [table[0]] + table[1..];
    }
  }

  lemma {:induction false} ScanFrom(v: nat, k: nat, width: nat, table: seq<FlagName>)
    requires WellFormed(table, width)
    ensures forall e :: e in Scan(v, k, width, table) <==>
      e in table && k <= e.shift < width && BitSet(v, e.shift)
    ensures forall i :: 0 <= i < |Scan(v, k, width, table)| ==> k <= Scan(v, k, width, table)[i].shift
    ensures forall i, j :: 0 <= i < j < |Scan(v, k, width, table)| ==>
      Scan(v, k, width, table)[i].shift < Scan(v, k, width, table)[j].shift
    decreases width - k
  {
    if k < width {
      var h := Hits(v, k, table);
      var rest := Scan(v, k + 1, width, table);
      HitsSpec(v, k, table);
      ScanFrom(v, k + 1, width, table);
      assert Scan(v, k, width, table) == h + rest;
      HitsDistinct(v, k, table);
    }
  }

  lemma {:induction false} HitsNone(v: nat, k: nat, table: seq<FlagName>)
    requires forall i :: 0 <= i < |table| ==> table[i].shift != k
    ensures Hits(v, k, table) == []
  {
    if |table| > 0 {
      MaskMatches(v, k, table[0]);
      HitsNone(v, k, table[1..]);
    }
  }

  /** With distinct shifts, at most one constant is matched at one position. */
  lemma {:induction false} HitsDistinct(v: nat, k: nat, table: seq<FlagName>)
    requires forall i, j :: 0 <= i < j < |table| ==> table[i].shift != table[j].shift
    ensures |Hits(v, k, table)| <= 1
  {
    if |table| > 0 {
      if Mask(v, k) == Value(table[0]) {
        MaskMatches(v, k, table[0]);
        forall i | 0 <= i < |table[1..]|
          ensures table[1..][i].shift != k
        {
          assert table[1..][i] == table[i + 1];
        }
        HitsNone(v, k, table[1..]);
      } else {
        HitsDistinct(v, k, table[1..]);
      }
    }
  }

  /** The loop lists exactly the set tabled bits, lowest first. */
  lemma ScanLists(v: nat, width: nat, table: seq<FlagName>)
    requires WellFormed(table, width)
    ensures Lists(table, v, width, Scan(v, 0, width, table))
  {
    ScanFrom(v, 0, width, table);
  }

  predicate Ascending(es: seq<FlagName>) {
    forall i, j :: 0 <= i < j < |es| ==> es[i].shift < es[j].shift
  }

  /** In an ascending listing, the tail holds exactly the members whose bit
      lies above the head's. */
  lemma AscendingTail(es: seq<FlagName>, e: FlagName)
    requires Ascending(es) && |es| > 0
    ensures e in es[1..] <==> e in es && e.shift > es[0].shift
  {
    if e in es && e.shift > es[0].shift {
      var q :| 0 <= q < |es| && es[q] == e;
      assert q != 0;
      assert es[1..][q - 1] == e;
    }
  }

  lemma AscendingHeadLeast(es: seq<FlagName>, e: FlagName)
    requires Ascending(es) && e in es
    ensures es[0].shift <= e.shift
  {
    var q :| 0 <= q < |es| && es[q] == e;
  }

  /** Two ascending listings of the same table constants agree. */
  lemma {:induction false} ListingUnique(table: seq<FlagName>, es: seq<FlagName>, fs: seq<FlagName>)
    requires forall i, j :: 0 <= i < j < |table| ==> table[i].shift != table[j].shift
    requires forall e :: e in es ==> e in table
    requires forall e :: e in es <==> e in fs
    requires Ascending(es) && Ascending(fs)
    ensures es == fs
  {
    if |es| > 0 {
      assert es[0] in es;
    }
    if |fs| > 0 {
      assert fs[0] in fs;
    }
    if |es| > 0 && |fs| > 0 {
      AscendingHeadLeast(fs, es[0]);
      AscendingHeadLeast(es, fs[0]);
      // Equal shifts of two table entries mean the same entry.
      var a :| 0 <= a < |table| && table[a] == es[0];
      var b :| 0 <= b < |table| && table[b] == fs[0];
      assert a == b;
      forall e
        ensures e in es[1..] <==> e in fs[1..]
      {
        AscendingTail(es, e);
        AscendingTail(fs, e);
      }
      ListingUnique(table, es[1..], fs[1..]);
      assert es == [es[0]] + es[1..];
      assert fs == [fs[0]] + fs[1..];
    }
  }

  lemma {:induction false} PipedJoin(es: seq<FlagName>)
    requires forall i :: 0 <= i < |es| ==> |es[i].name| > 0
    ensures |es| == 0 ==> Piped(es) == ""
    ensures |es| > 0 ==> |Piped(es)| > 3 && Piped(es)[3..] == Join(NamesOf(es))
  {
    if |es| > 0 {
      PipedJoin(es[1..]);
      var head := es[0].name;
      var rest := Piped(es[1..]);
      var sep: string := " | ";
      assert Piped(es) == sep + head + rest;
      assert (sep + head + rest)[3..] == head + rest;
      var names := NamesOf(es);
      assert names == [head] + NamesOf(es[1..]);
      if |es| > 1 {
        assert rest == sep + Join(NamesOf(es[1..]));
        assert names[1..] == NamesOf(es[1..]);
        assert Join(names) == head + sep + Join(names[1..]);
        assert head + rest == head + sep + Join(names[1..]);
      }
    }
  }

  /** `flags_str` / `fflags_str`: the names of the set bits that are in the
      table, lowest bit first, joined by " | ".  Any listing with that
      description yields the printed string. */
  lemma DescribeNamesSetBits(v: nat, width: nat, table: seq<FlagName>, es: seq<FlagName>)
    requires WellFormed(table, width)
    requires Lists(table, v, width, es)
    ensures Describe(v, width, table) == Join(NamesOf(es))
  {
    var sc := Scan(v, 0, width, table);
    ScanLists(v, width, table);
    ListingUnique(table, sc, es);
    PipedJoin(sc);
  }

  /** The printed string is empty exactly when no tabled bit is set. */
  lemma DescribeEmptyIff(v: nat, width: nat, table: seq<FlagName>)
    requires WellFormed(table, width)
    ensures Describe(v, width, table) == "" <==>
      forall i :: 0 <= i < |table| ==> !BitSet(v, table[i].shift)
  {
    var sc := Scan(v, 0, width, table);
    ScanLists(v, width, table);
    assert forall i :: 0 <= i < |sc| ==> sc[i] in table;
    PipedJoin(sc);
    if |sc| > 0 {
      var names := NamesOf(sc);
      JoinNonEmpty(names);
      assert sc[0] in table;
    } else {
      forall i | 0 <= i < |table|
        ensures !BitSet(v, table[i].shift)
      {
        assert table[i] in table;
      }
    }
  }

  lemma {:induction false} JoinNonEmpty(names: seq<string>)
    requires |names| > 0 && |names[0]| > 0
    ensures |Join(names)| > 0
  {
    if |names| > 1 {
      assert Join(names) == names[0] + " | " + Join(names[1..]);
    }
  }

  /** Bits the table does not name (EV_ERROR among them) do not affect the
      printed string: words that agree on every tabled bit print alike. */
  lemma DescribeIgnoresUntabled(v: nat, w: nat, width: nat, table: seq<FlagName>)
    requires WellFormed(table, width)
    requires forall i :: 0 <= i < |table| ==> (BitSet(v, table[i].shift) <==> BitSet(w, table[i].shift))
    ensures Describe(v, width, table) == Describe(w, width, table)
  {
    var sc := Scan(v, 0, width, table);
    ScanLists(v, width, table);
    forall e | e in table && e.shift < width && BitSet(w, e.shift)
      ensures e in sc
    {
      var i :| 0 <= i < |table| && table[i] == e;
    }
    forall i | 0 <= i < |sc|
      ensures BitSet(w, sc[i].shift)
    {
      var j :| 0 <= j < |table| && table[j] == sc[i];
    }
    assert Lists(table, w, width, sc);
    DescribeNamesSetBits(v, width, table, sc);
    DescribeNamesSetBits(w, width, table, sc);
  }

  lemma TablesWellFormed()
    ensures WellFormed(EvFlagNames, 16)
    ensures WellFormed(NoteNames, 32)
    ensures forall i :: 0 <= i < |EvFlagNames| ==> EvFlagNames[i].shift != EvErrorShift
  {
  }

  /** The interest flags follow registers, EV_ADD | EV_CLEAR (0x21), print
      as "EV_ADD | EV_CLEAR". */
  lemma InterestFlagsPrinted(flags: UShort)
    requires flags == 0x21
    ensures FlagsStr(flags) == EvAdd.name + " | " + EvClear.name
  {
    var es := [EvAdd, EvClear];
    assert FlagsStr(flags) == Join(NamesOf(es)) by {
      TablesWellFormed();
      Lists0x21();
      DescribeNamesSetBits(flags as nat, 16, EvFlagNames, es);
    }
    assert Join(NamesOf(es)) == EvAdd.name + " | " + EvClear.name by {
      assert NamesOf(es) == [EvAdd.name, EvClear.name];
    }
  }

  lemma Lists0x21()
    ensures Lists(EvFlagNames, 0x21, 16, [EvAdd, EvClear])
  {
    Bits0x21();
    var es := [EvAdd, EvClear];
    forall e | e in EvFlagNames && e.shift < 16 && BitSet(0x21, e.shift)
      ensures e in es
    {
      assert e == EvAdd || e == EvEnable || e == EvDisable || e == EvDispatch || e == EvDelete
        || e == EvReceipt || e == EvOneshot || e == EvClear || e == EvEof;
    }
  }

  lemma Bits0x21()
    ensures BitSet(0x21, 0) && BitSet(0x21, 5)
    ensures !BitSet(0x21, 1) && !BitSet(0x21, 2) && !BitSet(0x21, 3) && !BitSet(0x21, 4)
    ensures !BitSet(0x21, 6) && !BitSet(0x21, 7) && !BitSet(0x21, 15)
  {
    assert Pow2(1) == 2;
    assert Pow2(2) == 4;
    assert Pow2(3) == 8;
    assert Pow2(4) == 16;
    assert Pow2(5) == 32;
    assert Pow2(6) == 64;
    assert Pow2(7) == 128;
    assert Pow2(15) == 0x8000 by {
      assert Pow2(8) == 256;
      assert Pow2(12) == 4096;
    }
  }
}

=== FILE: output.dfy ===
/** The output multiplexer: follow's `write(fd, file, buf, nbytes)`, which
    appends a block read from one source to standard output, preceded by
    that source's banner when the previous block came from another source. */
module Output {
  import opened Io
  import opened FileInfo

  /** The dispatcher's whole state: the registry (fixed after startup), the
      descriptor of the source written last (-1 before the first write), and
      everything written to standard output so far. */
  datatype Follow = Follow(files: map<int, Source>, lastfd: int, out: Bytes)

  ghost predicate Valid(st: Follow) {
    && WellFormed(st.files)
    && (st.lastfd == -1 || st.lastfd in st.files)
  }

  /** The registry of `next` holds the same sources as that of `st`, under
      the same descriptors and names; only offsets, `pending` and control
      records may differ. */
  ghost predicate SameSources(st: Follow, next: Follow) {
    && next.files.Keys == st.files.Keys
    && forall fd :: fd in st.files ==>
         && next.files[fd].fd == st.files[fd].fd
         && next.files[fd].name == st.files[fd].name
         && next.files[fd].banner == st.files[fd].banner
  }

  /** Offsets never move backwards. */
  ghost predicate OffsetsGrow(st: Follow, next: Follow)
    requires next.files.Keys == st.files.Keys
  {
    forall fd :: fd in st.files ==> st.files[fd].offset <= next.files[fd].offset
  }

  // ---------------------------------------------------------------------
  // The short-write loop.

  /** Outcome of the send loop: the bytes that reached the sink, and whether
      the loop ran to completion (false: some write(2) returned -1). */
  datatype Sent = Sent(emitted: Bytes, done: bool)

  /** The loop as follow writes it: every call sends from the START of the
      buffer, asking for the count not yet sent. */
  function SendAsWritten(buf: Bytes, sent: nat, sink: Sink): (r: Sent)
    requires sent <= |buf|
    ensures sink == [] ==> r == Sent(buf[..|buf| - sent], true)
    ensures r.done ==> |r.emitted| == |buf| - sent
    ensures |r.emitted| <= (|sink| + 1) * |buf|
    decreases |sink|, |buf| - sent
  {
    if sent == |buf| then Sent([], true)
    else
      var ret := NextWrite(sink, |buf| - sent);
      if ret == -1 then Sent([], false)
      else
        var rest := SendAsWritten(buf, sent + ret, AfterWrite(sink));
        assert |rest.emitted| <= |sink| * |buf| by {
          if |sink| == 0 {
            assert sent + ret == |buf|;
          } else {
            assert (|AfterWrite(sink)| + 1) * |buf| == |sink| * |buf|;
          }
        }
        assert (|sink| + 1) * |buf| == |sink| * |buf| + |buf|;
        Sent(buf[..ret] + rest.emitted, rest.done)
  }

  /** The loop as evidently intended: each call resumes where the previous
      one stopped. */
  function SendCorrected(buf: Bytes, sent: nat, sink: Sink): (r: Sent)
    requires sent <= |buf|
    ensures r.done ==> r.emitted == buf[sent..]
    ensures !r.done ==> r.emitted <= buf[sent..]
    ensures sink == [] ==> r.done
    // A call returning -1 ends the loop with nothing more sent; while no
    // call does, the loop runs until the whole block is out.
    ensures sent < |buf| && FailsNext(sink) ==> r == Sent([], false)
    ensures NeverFails(sink) ==> r.done
    decreases |sink|, |buf| - sent
  {
    if sent == |buf| then Sent([], true)
    else
      var ret := NextWrite(sink, |buf| - sent);
      if ret == -1 then Sent([], false)
      else
        assert NeverFails(sink) ==> NeverFails(AfterWrite(sink)) by {
          if NeverFails(sink) && |sink| > 0 {
            forall i | 0 <= i < |AfterWrite(sink)| ensures AfterWrite(sink)[i].Capacity? {
              assert AfterWrite(sink)[i] == sink[i + 1];
            }
          }
        }
        var rest := SendCorrected(buf, sent + ret, AfterWrite(sink));
        assert buf[sent..] == buf[sent..sent + ret] + buf[sent + ret..];
        Sent(buf[sent..sent + ret] + rest.emitted, rest.done)
  }

  /** A short write makes the loop as written repeat the head of the block:
      four bytes, a sink that takes two and then everything, yield the first
      two bytes twice. */
  lemma ShortWriteRepeats()
    ensures SendAsWritten([1, 2, 3, 4], 0, [Capacity(2)]) == Sent([1, 2, 1, 2], true)
    ensures SendCorrected([1, 2, 3, 4], 0, [Capacity(2)]) == Sent([1, 2, 3, 4], true)
  {
    var buf: Bytes := [1, 2, 3, 4];
    assert NextWrite([Capacity(2)], 4) == 2;
    assert SendAsWritten(buf, 2, []) == Sent([1, 2], true);
    assert buf[2..] == [3, 4];
    assert SendCorrected(buf, 2, []) == Sent([3, 4], true);
  }

  /** The two loops agree whenever the first call takes the whole block. */
  lemma {:induction false} NoShortWriteNoDifference(buf: Bytes, sink: Sink)
    requires |sink| == 0 || (sink[0].Capacity? && sink[0].n >= |buf|)
    ensures SendAsWritten(buf, 0, sink) == SendCorrected(buf, 0, sink)
    ensures SendAsWritten(buf, 0, sink) == Sent(buf, true)
  {
    if |buf| > 0 {
      assert NextWrite(sink, |buf|) == |buf|;
      assert SendAsWritten(buf, |buf|, AfterWrite(sink)) == Sent([], true);
      assert SendCorrected(buf, |buf|, AfterWrite(sink)) == Sent([], true);
      assert buf[..|buf|] == buf;
      assert buf[0..|buf|] == buf;
    }
  }

  // ---------------------------------------------------------------------
  // write(fd, file, buf, nbytes)

  datatype Written = SinkFailed(out: Bytes) | Wrote(next: Follow)

  /** The banner is due before a non-empty block from `fd` once some block
      has been written and the last one came from another source. */
  predicate BannerDue(st: Follow, fd: int, nbytes: nat) {
    nbytes > 0 && st.lastfd != -1 && st.lastfd != fd
  }

  /** What the banner's own write(2), whose result follow ignores, puts on
      the sink. */
  function BannerWritten(banner: Bytes, sink: Sink): (b: Bytes)
    ensures b <= banner
    ensures |sink| == 0 ==> b == banner
    // A -1 puts nothing on the sink; otherwise the sink takes as much of the
    // banner as that call accepts.
    ensures FailsNext(sink) ==> b == []
    ensures |sink| > 0 && sink[0].Capacity? ==> b == banner[..Min(sink[0].n, |banner|)]
  {
    var ret := NextWrite(sink, |banner|);
    if ret == -1 then [] else banner[..ret]
  }

  /** The part of `fd`'s banner a write of `data` puts on the sink: what
      the sink took of it when it is due, nothing otherwise. */
  function BannerPart(st: Follow, fd: int, data: Bytes, sink: Sink): (b: Bytes)
    requires fd in st.files
    ensures b <= st.files[fd].banner
    ensures !BannerDue(st, fd, |data|) ==> b == []
  {
    if BannerDue(st, fd, |data|) then BannerWritten(st.files[fd].banner, sink) else []
  }

  /** What a write of `data` from `fd` appends: the part of the banner the
      sink took, if the banner is due, then the block itself. */
  function Framed(st: Follow, fd: int, data: Bytes, sink: Sink): (b: Bytes)
    requires fd in st.files
    ensures |data| == 0 ==> b == []
    ensures BannerDue(st, fd, |data|) && sink == [] ==> b == st.files[fd].banner + data
    ensures !BannerDue(st, fd, |data|) ==> b == data
  {
    BannerPart(st, fd, data, sink) + data
  }

  /** The sink as the block's own write(2) calls meet it: after the banner's
      call, when one is made. */
  function BlockSink(st: Follow, fd: int, nbytes: nat, sink: Sink): Sink {
    if BannerDue(st, fd, nbytes) then AfterWrite(sink) else sink
  }

  /** `write(STDOUT_FILENO, file, buf, nbytes)` with `data == buf[..nbytes]`,
      with the send loop corrected to resume where the last call stopped
      (see `SendAsWritten`, and `WriteAgreesAsWritten` for when the two
      coincide). */
  function Write(st: Follow, fd: int, data: Bytes, sink: Sink): (r: Written)
    requires fd in st.files
    // follow's own state: offset, lastfd, registry.
    ensures r.Wrote? ==> r.next.lastfd == fd
    ensures r.Wrote? ==> r.next.files == st.files[fd := st.files[fd].(offset := st.files[fd].offset + |data|)]
    // Content fidelity: the (possibly partial) banner if due, then the whole
    // block; a failing sink leaves a prefix of that.
    ensures r.Wrote? ==> r.next.out == st.out + Framed(st, fd, data, sink)
    ensures r.SinkFailed? ==> |data| > 0 && st.out <= r.out
    ensures r.SinkFailed? ==> r.out <= st.out + Framed(st, fd, data, sink)
    // An empty block writes nothing and only records the source.
    ensures |data| == 0 ==> r == Wrote(st.(lastfd := fd))
    // With a sink that takes every request whole: banner iff due, then the block.
    ensures sink == [] ==> (r.Wrote? && r.next.out ==
      st.out + (if BannerDue(st, fd, |data|) then st.files[fd].banner else []) + data)
    // The banner's write(2) cannot end the process; one of the block's can,
    // and only a -1 does: a -1 on the block's first call leaves just the
    // banner part, and a block sink that never fails takes the whole block.
    ensures NeverFails(BlockSink(st, fd, |data|, sink)) ==> r.Wrote?
    ensures |data| > 0 && FailsNext(BlockSink(st, fd, |data|, sink)) ==>
      r == SinkFailed(st.out + BannerPart(st, fd, data, sink))
  {
    if |data| > 0 then
      var file := st.files[fd];
      var banner := BannerPart(st, fd, data, sink);
      var sent := SendCorrected(data, 0, BlockSink(st, fd, |data|, sink));
      assert data[0..] == data;
      assert st.out + Framed(st, fd, data, sink) == st.out + banner + data;
      if !sent.done then
        assert st.out + banner + [] == st.out + banner;
        assert sent.emitted == data[..|sent.emitted|];
        assert st.out + banner + sent.emitted == (st.out + banner + data)[..|st.out + banner + sent.emitted|];
        SinkFailed(st.out + banner + sent.emitted)
      else Wrote(Follow(st.files[fd := file.(offset := file.offset + |data|)], fd,
                        st.out + banner + sent.emitted))
    else
      Wrote(st.(lastfd := fd))
  }

  /** When the block's first write(2) takes all of it, `Write` appends what
      the loop as written sends: the two differ only after a short write. */
  lemma WriteAgreesAsWritten(st: Follow, fd: int, data: Bytes, sink: Sink)
    requires fd in st.files
    requires var s := BlockSink(st, fd, |data|, sink); |s| == 0 || (s[0].Capacity? && s[0].n >= |data|)
    ensures Write(st, fd, data, sink).Wrote?
    ensures Write(st, fd, data, sink).next.out ==
      st.out + (if BannerDue(st, fd, |data|) then BannerWritten(st.files[fd].banner, sink) else [])
             + SendAsWritten(data, 0, BlockSink(st, fd, |data|, sink)).emitted
  {
    NoShortWriteNoDifference(data, BlockSink(st, fd, |data|, sink));
  }

  /** A failed banner write(2) is ignored: the block follows, and the
      process carries on. */
  lemma BannerFailureIgnored(st: Follow, fd: int, data: Bytes)
    requires fd in st.files && BannerDue(st, fd, |data|)
    ensures Write(st, fd, data, [WriteError]).Wrote?
    ensures Write(st, fd, data, [WriteError]).next.out == st.out + data
  {
    assert BlockSink(st, fd, |data|, [WriteError]) == [];
  }

  /** Writing keeps the state valid, keeps the sources, and moves only the
      written source's offset. */
  lemma WritePreserves(st: Follow, fd: int, data: Bytes, sink: Sink)
    requires Valid(st) && fd in st.files
    ensures Write(st, fd, data, sink).Wrote? ==>
      var next := Write(st, fd, data, sink).next;
      Valid(next) && SameSources(st, next) && OffsetsGrow(st, next)
  {
  }

  /** The very first block carries no banner, whatever its source. */
  lemma FirstBlockHasNoBanner(st: Follow, fd: int, data: Bytes)
    requires fd in st.files && st.lastfd == -1
    ensures Write(st, fd, data, []) == Wrote(Follow(
      st.files[fd := st.files[fd].(offset := st.files[fd].offset + |data|)], fd, st.out + data))
  {
  }

  /** Two consecutive blocks from one source carry no banner between them. */
  lemma NoBannerWithinOneSource(st: Follow, fd: int, a: Bytes, b: Bytes)
    requires fd in st.files && |a| > 0
    ensures Write(st, fd, a, []).Wrote?
    ensures Write(Write(st, fd, a, []).next, fd, b, []).Wrote?
    ensures Write(Write(st, fd, a, []).next, fd, b, []).next.out == Write(st, fd, a, []).next.out + b
  {
  }
}

=== FILE: scheduler.dfy ===
/** follow's per-event dispatcher, `decode_events`: one kqueue event is
    either the completion of an asynchronous read, whose bytes go to the
    output multiplexer, or a readiness notification for a source, which
    schedules an asynchronous read or falls back to a synchronous one.
    The model is of the debug build, where each source has `pending`. */
module Scheduler {
  import opened Io
  import opened KFlags
  import opened FileInfo
  import opened Output

  /** A decoded event.  A completion is recognised by its non-null `udata`,
      which carries the descriptor of the source whose read finished. */
  datatype Event =
    | Readiness(ident: int, flags: UShort)
    | Completion(fd: int, flags: UShort)

  /** `udata != NULL` decides the kind; a completion's descriptor is its
      `udata`. */
  function Classify(k: Kevent): (ev: Event)
    ensures ev.flags == k.flags
    ensures ev.Completion? <==> k.udata != 0
    ensures ev.Completion? ==> ev.fd == k.udata
    ensures ev.Readiness? ==> ev.ident == k.ident
  {
    if k.udata != 0 then Completion(k.udata, k.flags) else Readiness(k.ident, k.flags)
  }

  /** The event kqueue posts when the request `cb`, stored at address
      `cbAddress`, completes: its `udata` is the request's value. */
  function CompletionNote(cb: AioCb, cbAddress: int, flags: UShort): Kevent {
    Kevent(cbAddress, EvfiltAio, flags, 0, 0, cb.sigval)
  }

  /** A completion of a request filled for a source is recognised as such
      exactly when the source's descriptor is not 0; for descriptor 0 it
      would be taken for a readiness notification. */
  lemma CompletionRecognisedIffNonzero(s: Source, kq: int, cbAddress: int, flags: UShort)
    ensures Classify(CompletionNote(FillCb(s, kq), cbAddress, flags)) ==
      (if s.fd != 0 then Completion(s.fd, flags) else Readiness(cbAddress, flags))
  {
  }

  /** The answer of `aio_cancel`. */
  datatype CancelResult = Canceled | NotCanceled | AllDone | CancelFailed

  /** The outcomes of the system calls one dispatch may make. */
  datatype Env = Env(
    aioAccepted: bool,        // aio_read returned 0
    cancel: CancelResult,     // aio_cancel, after a rejected aio_read
    syncRead: ReadResult,     // read, in the fallback
    aioReturn: ReadResult,    // aio_return and the buffer it filled
    sink: Sink)               // write(2) calls on standard output

  /** Why the process ended: `err` after an event error, an unknown
      descriptor, a failed read or a failed write, or the debug build's
      `assert` that the descriptor stands at the source's offset. */
  datatype Reason = EventError | UnknownSource | ReadFailed | SinkWriteFailed | OffsetMismatch

  /** A dispatch ends the process (`err`) with what standard output holds at
      that point, or continues with a new state and the asynchronous read
      request it left with the kernel, if any. */
  datatype Step = Fatal(reason: Reason, out: Bytes) | Ok(next: Follow, submitted: Option<AioCb>)

  datatype Option<T> = None | Some(value: T)

  predicate HasError(flags: UShort) {
    BitSet(flags as nat, EvErrorShift)
  }

  /** What follow assumes of the events it is given: a completion names a
      registered source through a non-null `udata`. */
  predicate Deliverable(files: map<int, Source>, ev: Event) {
    ev.Completion? ==> ev.fd != 0 && ev.fd in files
  }

  function SetSource(st: Follow, fd: int, s: Source): (next: Follow)
    requires Valid(st) && fd in st.files
    requires s.fd == fd && s.name == st.files[fd].name && s.banner == st.files[fd].banner
    requires st.files[fd].offset <= s.offset
    ensures Valid(next) && SameSources(st, next) && OffsetsGrow(st, next)
    ensures next.lastfd == st.lastfd && next.out == st.out
    ensures next.files == st.files[fd := s]
  {
    st.(files := st.files[fd := s])
  }

  function Deliver(w: Written): Step {
    match w
    case SinkFailed(out) => Fatal(SinkWriteFailed, out)
    case Wrote(next) => Ok(next, None)
  }

  /** Hand a block to the output multiplexer. */
  function Emit(st: Follow, fd: int, data: Bytes, sink: Sink): (r: Step)
    requires Valid(st) && fd in st.files
    ensures r.Fatal? ==> r.reason == SinkWriteFailed && st.out <= r.out
    ensures r.Fatal? ==> r.out <= st.out + Framed(st, fd, data, sink)
    ensures NeverFails(BlockSink(st, fd, |data|, sink)) ==> r.Ok?
    ensures |data| > 0 && FailsNext(BlockSink(st, fd, |data|, sink)) ==>
      r == Fatal(SinkWriteFailed, st.out + BannerPart(st, fd, data, sink))
    ensures r.Ok? ==> Valid(r.next) && SameSources(st, r.next) && OffsetsGrow(st, r.next)
    ensures r.Ok? ==> st.out <= r.next.out && r.submitted.None?
    ensures r.Ok? ==> r.next.files == st.files[fd := st.files[fd].(offset := st.files[fd].offset + |data|)]
    // The block reaches the output, after the banner when due.
    ensures r.Ok? ==> r.next.lastfd == fd && r.next.out == st.out + Framed(st, fd, data, sink)
  {
    WritePreserves(st, fd, data, sink);
    Deliver(Write(st, fd, data, sink))
  }

  /** The completion branch: the source no longer has a read outstanding; a
      failed read is dropped, a successful one is written out. */
  function Complete(st: Follow, fd: int, env: Env): (r: Step)
    requires Valid(st) && fd in st.files
    ensures r.Fatal? ==> r.reason == SinkWriteFailed && st.out <= r.out
    ensures r.Ok? ==> Valid(r.next) && SameSources(st, r.next) && OffsetsGrow(st, r.next)
    ensures r.Ok? ==> st.out <= r.next.out && r.submitted.None?
    ensures r.Ok? ==> !r.next.files[fd].pending
    ensures r.Ok? ==> r.next.files[fd].position == st.files[fd].position
    ensures r.Ok? ==> forall k :: k in st.files && k != fd ==> r.next.files[k] == st.files[k]
    ensures env.aioReturn.ReadError? ==>
      r == Ok(st.(files := st.files[fd := st.files[fd].(pending := false)]), None)
    // The bytes aio_return reports go to the output and advance the offset.
    ensures env.aioReturn.ReadBytes? ==> Delivered(st, fd, env.aioReturn.data, env.sink, r)
  {
    var st1 := SetSource(st, fd, st.files[fd].(pending := false));
    match env.aioReturn
    case ReadError => Ok(st1, None)
    case ReadBytes(data) =>
      assert Framed(st1, fd, data, env.sink) == Framed(st, fd, data, env.sink);
      assert BannerPart(st1, fd, data, env.sink) == BannerPart(st, fd, data, env.sink);
      assert BlockSink(st1, fd, |data|, env.sink) == BlockSink(st, fd, |data|, env.sink);
      Emit(st1, fd, data, env.sink)
  }

  /** The outcome `r` of a read of `data` from `fd` that is handed to the
      output: either the process ends on a failed write, having output a
      prefix of the framed block, or the framed block is output, `fd` is
      the last source written and its offset has grown by the block.  The
      process ends only if one of the block's write(2) calls returns -1,
      and it does end, with just the banner part output, when the first of
      them returns -1. */
  ghost predicate Delivered(st: Follow, fd: int, data: Bytes, sink: Sink, r: Step)
    requires fd in st.files
  {
    && (NeverFails(BlockSink(st, fd, |data|, sink)) ==> r.Ok?)
    && (|data| > 0 && FailsNext(BlockSink(st, fd, |data|, sink)) ==>
          r == Fatal(SinkWriteFailed, st.out + BannerPart(st, fd, data, sink)))
    && (r.Fatal? ==> r.reason == SinkWriteFailed && |data| > 0 && r.out <= st.out + Framed(st, fd, data, sink))
    && (r.Ok? ==>
         && r.next.lastfd == fd
         && fd in r.next.files
         && r.next.files[fd].offset == st.files[fd].offset + |data|
         && r.next.out == st.out + Framed(st, fd, data, sink))
  }

  /** The readiness branch for a registered source with nothing
      outstanding: schedule an asynchronous read; if that is refused,
      cancel, and unless the cancel reports AIO_CANCELED check that the
      descriptor stands at the offset and read synchronously. */
  function Initiate(st: Follow, kq: int, fd: int, env: Env): (r: Step)
    requires Valid(st) && fd in st.files && !st.files[fd].pending
    ensures r.Fatal? ==> st.out <= r.out
    ensures r.Fatal? && r.reason != SinkWriteFailed ==> r.out == st.out
    ensures r.Ok? ==> Valid(r.next) && SameSources(st, r.next) && OffsetsGrow(st, r.next)
    ensures r.Ok? ==> st.out <= r.next.out
    ensures r.Ok? ==> forall k :: k in st.files && k != fd ==> r.next.files[k] == st.files[k]
    ensures r.Ok? ==> r.next.files[fd].cb == FillCb(st.files[fd], kq)
    ensures r.Ok? ==> (r.submitted.Some? <==> env.aioAccepted)
    ensures r.Ok? ==> r.next.files[fd].pending == env.aioAccepted
    ensures r.Ok? && env.aioAccepted ==>
      && r.submitted == Some(FillCb(st.files[fd], kq))
      && r.next.files[fd].offset == st.files[fd].offset
      && r.next.files[fd].position == st.files[fd].position
      && r.next.out == st.out && r.next.lastfd == st.lastfd
    ensures env.aioAccepted ==> r.Ok?
    ensures !env.aioAccepted && env.cancel == Canceled ==>
      r.Ok? && r.next.out == st.out && r.next.lastfd == st.lastfd
      && r.next.files[fd].offset == st.files[fd].offset
      && r.next.files[fd].position == st.files[fd].position
    // The fallback: the debug build's assert, then read(2).
    ensures !env.aioAccepted && env.cancel != Canceled && st.files[fd].position != st.files[fd].offset ==>
      r == Fatal(OffsetMismatch, st.out)
    ensures Fallback(st, fd, env) && env.syncRead.ReadError? ==>
      r == Fatal(ReadFailed, st.out)
    ensures Fallback(st, fd, env) && env.syncRead == ReadBytes([]) ==>
      r.Ok? && r.next.out == st.out && r.next.lastfd == st.lastfd
      && r.next.files[fd].offset == st.files[fd].offset
      && r.next.files[fd].position == st.files[fd].position
    // A non-empty synchronous read goes to the output and moves both the
    // offset and the descriptor by the bytes read.
    ensures Fallback(st, fd, env) && env.syncRead.ReadBytes? && |env.syncRead.data| > 0 ==>
      && Delivered(st, fd, env.syncRead.data, env.sink, r)
      && (r.Ok? ==> r.next.files[fd].position == st.files[fd].position + |env.syncRead.data|)
  {
    var file := st.files[fd];
    var cb := FillCb(file, kq);
    if env.aioAccepted then
      Ok(SetSource(st, fd, file.(pending := true, cb := cb)), Some(cb))
    else if env.cancel == Canceled then
      Ok(SetSource(st, fd, file.(pending := false, cb := cb)), None)
    else if file.position != file.offset then
      Fatal(OffsetMismatch, st.out)
    else match env.syncRead
      case ReadError => Fatal(ReadFailed, st.out)
      case ReadBytes(data) =>
        var st1 := SetSource(st, fd, file.(pending := false, cb := cb, position := file.position + |data|));
        if |data| == 0 then Ok(st1, None)
        else
          assert Framed(st1, fd, data, env.sink) == Framed(st, fd, data, env.sink);
          assert BannerPart(st1, fd, data, env.sink) == BannerPart(st, fd, data, env.sink);
          assert BlockSink(st1, fd, |data|, env.sink) == BlockSink(st, fd, |data|, env.sink);
          Emit(st1, fd, data, env.sink)
  }

  /** The refused request falls through to the synchronous read: aio_read
      failed, aio_cancel did not report AIO_CANCELED, and the descriptor
      stands at the source's offset. */
  predicate Fallback(st: Follow, fd: int, env: Env)
    requires fd in st.files
  {
    !env.aioAccepted && env.cancel != Canceled && st.files[fd].position == st.files[fd].offset
  }

  /** `decode_events(files, kq, i, event)`. */
  function Dispatch(st: Follow, kq: int, ev: Event, env: Env): (r: Step)
    requires Valid(st) && Deliverable(st.files, ev)
    // Fatal exits observe nothing beyond what was already written.
    ensures HasError(ev.flags) ==> r == Fatal(EventError, st.out)
    ensures ev.Readiness? && !HasError(ev.flags) && ev.ident !in st.files ==> r == Fatal(UnknownSource, st.out)
    ensures r.Fatal? ==> st.out <= r.out
    ensures r.Fatal? && r.reason != SinkWriteFailed ==> r.out == st.out
    // A readiness for a source with a read outstanding is dropped.
    ensures ev.Readiness? && !HasError(ev.flags) && ev.ident in st.files && st.files[ev.ident].pending ==>
      r == Ok(st, None)
    // A completion is handled by the completion branch, a readiness for a
    // source with nothing outstanding by the readiness branch.
    ensures ev.Completion? && !HasError(ev.flags) ==> r == Complete(st, ev.fd, env)
    ensures ev.Readiness? && !HasError(ev.flags) && ev.ident in st.files && !st.files[ev.ident].pending ==>
      r == Initiate(st, kq, ev.ident, env)
    // A failed asynchronous read is discarded: only `pending` changes.
    ensures ev.Completion? && !HasError(ev.flags) && env.aioReturn.ReadError? ==>
      r == Ok(st.(files := st.files[ev.fd := st.files[ev.fd].(pending := false)]), None)
    // A successful asynchronous read is written out, banner first when due.
    ensures ev.Completion? && !HasError(ev.flags) && env.aioReturn.ReadBytes? ==>
      Delivered(st, ev.fd, env.aioReturn.data, env.sink, r)
    // A refused request for a source whose descriptor has moved away from
    // its offset trips the assert; otherwise a non-empty fallback read is
    // written out like a completion.
    ensures (ev.Readiness? && !HasError(ev.flags) && ev.ident in st.files && !st.files[ev.ident].pending
             && !env.aioAccepted && env.cancel != Canceled
             && st.files[ev.ident].position != st.files[ev.ident].offset) ==>
      r == Fatal(OffsetMismatch, st.out)
    ensures (ev.Readiness? && !HasError(ev.flags) && ev.ident in st.files && !st.files[ev.ident].pending
             && Fallback(st, ev.ident, env) && env.syncRead.ReadBytes? && |env.syncRead.data| > 0) ==>
      Delivered(st, ev.ident, env.syncRead.data, env.sink, r)
    // The registry is fixed; offsets only advance; output only grows.
    ensures r.Ok? ==> Valid(r.next) && SameSources(st, r.next) && OffsetsGrow(st, r.next)
    ensures r.Ok? ==> st.out <= r.next.out
    // Only the event's source changes.
    ensures r.Ok? ==> forall fd :: fd in st.files && fd != EventFd(ev) ==> r.next.files[fd] == st.files[fd]
    // The descriptor moves only by a synchronous read.
    ensures r.Ok? && EventFd(ev) in st.files ==>
      r.next.files[EventFd(ev)].position == st.files[EventFd(ev)].position
        + (if ev.Readiness? && !st.files[ev.ident].pending && Fallback(st, ev.ident, env) && env.syncRead.ReadBytes?
           then |env.syncRead.data| else 0)
    // A request is left with the kernel only for a readiness of a source with
    // none outstanding, which then is pending, with nothing else changed.
    ensures r.Ok? && r.submitted.Some? ==>
      && ev.Readiness? && ev.ident in st.files && !st.files[ev.ident].pending
      && r.next.files[ev.ident].pending
      && r.submitted.value == r.next.files[ev.ident].cb == FillCb(st.files[ev.ident], kq)
      && r.next.files[ev.ident].offset == st.files[ev.ident].offset
      && r.next.out == st.out && r.next.lastfd == st.lastfd
    // After any other dispatch the event's source has nothing outstanding,
    // unless it already had and the notification was dropped.
    ensures r.Ok? && r.submitted.None? && EventFd(ev) in st.files ==>
      r.next.files[EventFd(ev)].pending == (ev.Readiness? && st.files[ev.ident].pending)
  {
    if HasError(ev.flags) then Fatal(EventError, st.out)
    else match ev
      case Completion(fd, _) => Complete(st, fd, env)
      case Readiness(fd, _) =>
        if fd !in st.files then Fatal(UnknownSource, st.out)
        else if st.files[fd].pending then Ok(st, None)
        else Initiate(st, kq, fd, env)
  }

  function EventFd(ev: Event): int {
    match ev
    case Readiness(ident, _) => ident
    case Completion(fd, _) => fd
  }
}
